=== FILE: README.md ===
# Nmet compiler core in Dafny

A model of three pieces of the Nmet compiler, which compiles the Nemet
language to x86-64 NASM assembly:

- **Registers and the emission buffer** (`src/codegen.rs`).
  - The `R` register enum packs its discriminant into one byte: the high
    nibble is the width in bytes (0 for the four legacy high-byte registers
    `ah`, `ch`, `dh`, `bh`), the low nibble the family.
  - The sized lookups `A_s` … `R9_s` and the `Display` name table.
  - The `Codegen` buffer: three append-only line streams (code, `.data`,
    `.bss`), the label-generating segment allocators, the
    placeholder/back-patch pair and one emitter per mnemonic.
- **The compiler driver** (`src/compiler/mod.rs`).
  - Stack-slot arithmetic, the context and its error counter.
  - Built-in routine emission, the System V AMD64 argument-register order
    (section 3.2.3 of the psABI) and the frame-size round-up.
  - The two passes: declaration collection, `_start` synthesis, and the final
    error and scope checks.
- **The prototype expression parser** (`src/main.rs`).
  - `Op::from_token_type` and the recursive `Expr::parse` over a token
    sequence.
  - `padding_right`.

Every operation is a pure function that returns the updated state. The
source's `exit(-1)`, `log_error!` and `Err` paths become `Result`/`Outcome`
values. Inputs on which the source would panic (`unreachable!()`, an
underflowing `usize` subtraction) or silently wrap around (the `as i32` cast
of `stack_offset`) are excluded by preconditions; "## Left out" lists each
one.

Files, in dependency order:

- `wrappers.dfy`: `Option`, `Result`, `Outcome`.
- `decimal.dfy`: decimal rendering of naturals, which is what `format!` does
  to the numbers inside labels, and its inverse.
- `types.dfy`: the front-end records the driver consumes.
- `registers.dfy`: the register model.
- `codegen.dfy`: the buffer.
- `compiler.dfy`: the driver.
- `tokens.dfy` and `parser.dfy`: the parser.
- `help.dfy`: `padding_right`.

Two behaviours of the source worth noting:

- **Stack slots.** `stack_offset` returns `-(offset + size)`. A variable
  declared later, at a larger offset, therefore lies further below the frame
  pointer, not closer to it (`Compiler.LaterVariableLiesBelow`).
- **Missing `main`.** When `main` is missing, `compile_init_function` has
  already emitted `_start:`, `push rbp` and `mov rbp, rsp` before it reports
  the error. The failure does not come before any output.
- **No precedence.** The comments at the top of `main.rs` describe
  `4 * 3 + 6` in postfix as `4 3 * 6 +`, that is `(4 * 3) + 6`. The parser
  groups every chain to the right and builds `4 * (3 + 6)`
  (`ExprParser.PrecedenceIgnored`).

## Model

| member | source | states |
|---|---|---|
| Registers.CodeRoundTrip | src/codegen.rs:8-53 | decoding a register's discriminant gives back the register, so no two registers share one |
| Registers.CodeInjective | src/codegen.rs:8-53 | equal discriminants mean equal registers |
| Registers.NameRoundTrip | src/codegen.rs:147-196 | reading a register's display name back gives the register |
| Registers.NamesDistinct | src/codegen.rs:147-196 | the 44 display names are pairwise distinct |
| Registers.Code | src/codegen.rs:8-53 | every discriminant has a family nibble of at most 9 under a width nibble of 1, 2, 4 or 8 bytes, or a width nibble of 0 for the high-byte registers, which exist only for families A, C, D and B |
| Registers.Name | src/codegen.rs:147-196 | every display name is two or three lower-case letters or digits, starting with a letter |
| Registers.Sized | src/codegen.rs:58-144 | for an item size of 1, 2, 4 or 8 (anything else is unreachable), the looked-up register's discriminant is 16·size + the family index (A=0, C=1, D=2, B=3, SI=6, DI=7, R8=8, R9=9) |
| Registers.SizedInjective | src/codegen.rs:58-144 | different (family, size) requests never give the same register |
| Registers.SizedCoversFamily | src/codegen.rs:8-144 | every register whose family is one of the eight looked-up families (A, C, D, B, SI, DI, R8, R9) and whose width nibble is non-zero is what the lookup of its family and width returns |
| Registers.SizedNames | src/codegen.rs:58-196 | 8-byte A is `rax`, 1-byte C is `cl`, 4-byte DI is `edi`, 2-byte R9 is `r9w` |
| Decimal.ValueOfNatToString | src/codegen.rs:222-234 | the decimal text used inside labels reads back as the number |
| Decimal.NatToStringInjective | src/codegen.rs:222-234 | different numbers render as different digit strings |
| Codegen.New | src/codegen.rs:210-216 | a new buffer has all three streams empty |
| Codegen.GetId | src/codegen.rs:218-220 | the id is the current number of instruction lines |
| Codegen.NewIsWellFormed | src/codegen.rs:210-233 | a new buffer satisfies the `.data` and `.bss` invariants the segment allocators preserve |
| Codegen.EmitLandsAtId | src/codegen.rs:218-260 | the id taken before an emission indexes the emitted line, which reads back as that mnemonic and operands, and the id then moves on by one |
| Codegen.AddDataSeg | src/codegen.rs:222-228 | the returned id is the prior data length, exactly `data{id} db …` and `len{id} equ $ - data{id}` are appended, and the other streams are untouched |
| Codegen.AddDataSegPreservesWellFormed | src/codegen.rs:222-228 | a data segment built by `add_data_seg` stays a sequence of (definition, length) pairs labelled by their index |
| Codegen.SuccessiveDataIds | src/codegen.rs:222-228 | ids are even, two successive calls get ids two apart with different labels, and the size argument has no effect |
| Codegen.DataLabelDefinedOnce | src/codegen.rs:222-228 | in such a segment no line other than its own starts with `data{i} ` |
| Codegen.AddBssSeg | src/codegen.rs:230-234 | returns `arr{n}` with n the prior bss length and appends exactly `arr{n}: resb {size}` |
| Codegen.AddBssSegPreservesWellFormed | src/codegen.rs:230-234 | line i of a bss segment built by `add_bss_seg` reserves `arr{i}` |
| Codegen.BssLabelDefinedOnce | src/codegen.rs:230-234 | each `arr{i}` label is defined by one line only |
| Codegen.PlaceHolder | src/codegen.rs:236-239 | appends one empty line and returns its index, the old length |
| Codegen.InsertRaw | src/codegen.rs:241-243 | appends exactly the given line and nothing else |
| Codegen.InsertIntoRaw | src/codegen.rs:245-252 | succeeds iff index < len − 1; on success only line `index` changes and the length stays; on failure the buffer is unchanged and the error is `index out of bounds!` |
| Codegen.LastLineNeverPatched | src/codegen.rs:245-252 | the last line can never be overwritten |
| Codegen.PatchAfterPlaceHolder | src/codegen.rs:236-252 | a placeholder cannot be patched while it is last, and once a line follows it, patching replaces the empty line and nothing else |
| Codegen.PatchBeforeRawLine | src/codegen.rs:236-252 | patching a placeholder that a raw line follows gives the buffer that inserting the patch and then the raw line would give |
| Codegen.PatchBeforeInstruction | src/codegen.rs:236-260 | patching a placeholder that an emitted instruction follows gives the buffer that inserting the patch and then emitting would give |
| Codegen.MnemonicNameRoundTrip | src/codegen.rs:254-424 | each emitter's mnemonic text names that mnemonic and no other |
| Codegen.InstructionTextSplits | src/codegen.rs:254-424 | the first word of an instruction is its mnemonic and the rest its operands |
| Codegen.InstructionLineDecodes | src/codegen.rs:254-424 | an instruction line reads back as its mnemonic and its operands joined by `, ` |
| Codegen.Emit | src/codegen.rs:254-424 | an emitter with the operand count its mnemonic takes appends exactly one line, which reads back as that mnemonic and those operands, and leaves data and bss untouched |
| Codegen.Tag | src/codegen.rs:401-403 | appends the unindented line `name:`, which never reads as an instruction unless the name starts with a space, and leaves data and bss untouched |
| Codegen.LineExamples | src/codegen.rs:262-424 | `mov rbp, rsp`, `push rbp` and `ret` lines as the emitters write them |
| Compiler.StackOffset | src/compiler/mod.rs:56-58 | offset + size + result = 0, so the result is negative exactly when the slot is non-empty, given that the sum fits in `i32` |
| Compiler.LaterVariableLiesBelow | src/compiler/mod.rs:56-58 | a variable placed after another gets a slot entirely below it |
| Compiler.New | src/compiler/mod.rs:74-86 | a new context has no errors, zero memory offset, and empty scopes, maps, bif set and buffers |
| Compiler.Error | src/compiler/mod.rs:87-89 | the error counter rises by exactly one and nothing else changes |
| Compiler.EnumerationCountsOnce | src/compiler/mod.rs:92-96 | an enumeration of the bif set lists every member of the set exactly once |
| Compiler.ImplBifs | src/compiler/mod.rs:92-96 | appends the bodies of the set's bifs, in the enumeration's order, and changes nothing else |
| Compiler.ArgumentRegister | src/compiler/mod.rs:110-120 | argument 0..5 goes to RDI, RSI, RDX, RCX, R8, R9, which are 8-byte registers of those families; index 6 and up is unreachable |
| Compiler.ArgumentRegisterSized | src/compiler/mod.rs:98-108 | the same family order, at the width of the argument's item size, and the 8-byte case is the unsized register |
| Compiler.ArgumentRegisterNames | src/compiler/mod.rs:98-120 | the six argument registers display as `rdi`, `rsi`, `rdx`, `rcx`, `r8`, `r9` |
| Compiler.ILog2 | src/compiler/mod.rs:122-124 | the floor log2 k of n ≥ 1 satisfies 2^k ≤ n < 2^(k+1) |
| Compiler.FrameSizeInRange | src/compiler/mod.rs:122-124 | below 2^63 the shifted value fits in `usize` and is a power of two strictly above n and at most 2n |
| Compiler.FrameSize | src/compiler/mod.rs:122-124 | for 1 ≤ n < 2^63 the frame size is a power of two p with n < p ≤ 2n; from 2^63 the `usize` shift wraps to 0 |
| Compiler.LastEntryExists | src/compiler/mod.rs:145-166 | a name has a last registration exactly when some item registers it |
| Compiler.CollectTypes | src/compiler/mod.rs:145-166 | functions and foreign declarations are keys of the function map, foreign ones also of the ffi map, and structs of the struct map; static variables add nothing; each key maps to its last declaration; other keys and the rest of the context are unchanged |
| Compiler.EntryFrameTexts | src/compiler/mod.rs:169-171 | the frame lines are `_start:`, `push rbp`, `mov rbp, rsp` |
| Compiler.EntryCallTexts | src/compiler/mod.rs:177-181 | the call and exit lines are `call main`, `mov rax, 60`, `mov rdi, 0`, `syscall` |
| Compiler.EmitEntryFrame | src/compiler/mod.rs:169-171 | appends exactly the three frame lines and leaves data and bss untouched |
| Compiler.EmitEntryCall | src/compiler/mod.rs:177-181 | appends exactly the call to `main` and the three exit lines and leaves data and bss untouched |
| Compiler.CompileInitFunction | src/compiler/mod.rs:168-182 | passes iff `main` is declared; always appends `_start:`, `push rbp`, `mov rbp, rsp`, and on success also the call to `main` and `exit(0)` |
| Compiler.FunctionsOf | src/compiler/mod.rs:130-134 | the program's functions are exactly its `Func` items |
| Compiler.FunctionsOfAppend | src/compiler/mod.rs:130-134 | the functions of two consecutive parts of a program are those of the first part followed by those of the second, so the filter keeps source order |
| Compiler.CompileItems | src/compiler/mod.rs:130-134 | the driver loop compiles exactly the `Func` items, in source order |
| Compiler.Compile | src/compiler/mod.rs:126-143 | missing-entry failure iff `main` is declared nowhere (then only the three frame lines were added); otherwise it fails iff errors were recorded, with their count; success also needs an empty scope stack; whenever `main` exists, the resulting context is the one after `_start` synthesis with every function of the program compiled in source order |
| Compiler.CompileItemsAppends | src/compiler/mod.rs:130-134 | with a function compiler that records no error, leaves the scope stack alone and only appends code, the loop keeps the count and scopes and only appends code |
| Compiler.MainOnlyProgram | src/compiler/mod.rs:126-182 | with a function compiler that records no error, leaves the scope stack alone and only appends code, a file holding only `main` compiles, and its code starts with `_start`, the call and the exit |
| Compiler.ErrorPreventsSuccess | src/compiler/mod.rs:87-143 | with a function compiler that never lowers the error count, a context in which `error` has recorded a diagnostic never compiles successfully: it ends as a failure or with the missing entry point |
| Compiler.FreshMissingEntry | src/compiler/mod.rs:74-182 | from a new context, compilation stops with the missing-entry error exactly when no function is called `main` |
| ExprParser.FromTokenType | src/main.rs:28-39 | only the four operator tokens convert; anything else is an error |
| ExprParser.OpTokenRoundTrip | src/main.rs:28-39 | a token converts to an operator exactly when it is that operator's token (Plus→Plus, Minus→Sub, Multi→Multi, Devide→Devide) |
| ExprParser.Parse | src/main.rs:78-137 | a successful parse consumes at least one token and leaves a suffix of its input, and over literals it builds only operator/literal trees |
| ExprParser.ParseExpr | src/main.rs:78-137 | every successful call reads at least one token and leaves a suffix of its input, and over literals it builds only operator/literal trees |
| ExprParser.AddSub | src/main.rs:84-104 | a `+` or `-` reads at least one more token and, over literals, builds only operator/literal trees |
| ExprParser.MulDiv | src/main.rs:105-117 | a `*` or `/` reads at least one more token and, over literals, builds only operator/literal trees |
| ExprParser.LeadingSemicolon | src/main.rs:79-82 | a leading `;` yields no expression, even with a left operand |
| ExprParser.IntAfterLeftIsError | src/main.rs:118-121 | a literal after a complete operand is an error |
| ExprParser.MulDivWithoutLeftIsError | src/main.rs:105-117 | `*` or `/` without a left operand is an error |
| ExprParser.OperatorAfterLeft | src/main.rs:97-117 | after a left operand, each of the four operators parses its right side from scratch, fails without one, and otherwise builds `Binary(left, op, right)` |
| ExprParser.LiteralFirst | src/main.rs:118-131 | a literal without a left operand continues as the left operand and is the result when nothing follows |
| ExprParser.SignedFirst | src/main.rs:86-91 | a sign before a literal continues with the signed literal as left operand; as written it is dropped when nothing follows |
| ExprParser.SignDropsNextToken | src/main.rs:86-96 | a sign not followed by a literal ignores the token after it; the result is the sign applied to a fresh parse of the rest, and a missing-right-side error when that parse yields nothing (errors pass through) |
| ExprParser.ChainParses | src/main.rs:78-137 | a chain of operands and operators ending in `;` parses to the right-associated tree, except that a signed literal in last position is lost as written |
| ExprParser.ContinuationParses | src/main.rs:97-117 | after a left operand, an operator takes everything to its right as its right operand |
| ExprParser.ChainsAssociateRight | src/main.rs:97-131 | as written, chains ending in a plain literal parse to the right-associated tree |
| ExprParser.SignedLastOperandLost | src/main.rs:86-91 | as written, a chain ending in a signed literal yields nothing or a missing-right-side error |
| ExprParser.SignedLiteralExamples | src/main.rs:86-103 | `-1;` yields no expression and `1 + -2;` is an error |
| ExprParser.CorrectedChainsAssociateRight | src/main.rs:86-131 | with the correction, every chain parses to its right-associated tree |
| ExprParser.CorrectedSignedLiteralExamples | src/main.rs:86-131 | with the correction, `-1;` is `-(1)` and `1 + -2;` is `1 + -(2)` |
| ExprParser.PrecedenceIgnored | src/main.rs:78-137 | `4 * 3 + 6;` parses to `4 * (3 + 6)`: chains group to the right whatever the operators |
| ExprParser.MainExample | src/main.rs:178-183 | `-1 + 2 + 3;` parses to `(-(1)) + (2 + 3)` |
| Help.Utf8LengthAppend | src/main.rs:141-148 | the byte length of a concatenation is the sum of the byte lengths |
| Help.Utf8LengthBounds | src/main.rs:141-148 | byte length lies between the character count and four times it, and equals it exactly for ASCII |
| Help.PaddingRight | src/main.rs:141-148 | for a string of at most 20 bytes, the result is 20 bytes long: the string followed only by spaces |

## Left out

- Input and output: file reading, printing, `help_command`, `compile_command`
  and the command-line loop of `main.rs`. They only print and read files.
- The lexer and `expect_some_token`. Tokens are a small datatype. Reading
  past the last token is an error outcome, because the lexer's own
  behaviour there is not part of this model.
- `parse_source_file` and the front-end records. The parsed program is an
  item list given to `Compiler.Compile`. `VariableType` is abstract, with
  only `item_size` and `size`.
- `compile_function`, whose body is not part of this model. It is a function
  parameter of `Compiler.Compile`.
- `Bif::implement`, whose body is not part of this model. It is a function
  from bif to lines, given to `Compiler.ImplBifs`.
- Registers.Sized, Compiler.ArgumentRegister, Compiler.ArgumentRegisterSized:
  the `unreachable!()` arms (an item size other than 1, 2, 4 or 8; an
  argument index of 6 or more) are preconditions.
- `Reg::convert`. It is modelled by `Registers.Sized` on the register
  family.
- The newer code generation API of `mod.rs` (`Mnemonic`, `instr0/1/2`,
  `set_lable`, `Opr`) is not shown in `codegen.rs`. Its calls are modelled as
  the `Codegen.Emit` and `Codegen.Tag` lines of `codegen.rs`. The ffi map is
  a field of the compiler context.
- Compiler.ImplBifs: does not fix the order of the bif bodies. The source
  iterates a hash set, so the order is a parameter.
- Compiler.StackOffset: the `i32` cast overflow is a precondition, not a
  wrap-around.
- Codegen.InsertIntoRaw: the `usize` underflow of `len - 1` on an empty buffer
  is a precondition.
- Help.PaddingRight: the `usize` underflow of `20 - len` for strings longer
  than 20 bytes is a precondition.
- Compiler.FrameSize: `ilog2` panics at 0, which is a precondition. The
  `usize` range is a precondition too.
- ExprParser.ParseExpr: literal values are unbounded integers, not `i32`.
  The lexer that would range-check them is not part of this model.
- The variable tables (`variables_map`, `mem_offset`) are carried but not
  used. Only `compile_function` uses them.
- The `log_error!` texts of the driver are kept only where they are an
  outcome of a modelled operation.

## Findings

| source | as written | input that shows it | evidently intended | confidence | as-written member | corrected member |
|---|---|---|---|---|---|---|
| src/main.rs:86-91 | a sign directly before a literal builds `Unary(op, Int)` and returns whatever the rest of the stream parses to with it as left operand; if the rest is just `;` that is `None`, so the signed literal is dropped | `-1;` parses to no expression; `1 + -2;` fails with "Operation Missing right side" | keep the signed literal as the result when nothing follows it, as the `Int` branch (lines 122-129) does for a plain literal | not executed | ExprParser.SignedLastOperandLost | ExprParser.CorrectedChainsAssociateRight |

=== FILE: codegen.dfy ===
/** The emission buffer: three append-only streams of assembly lines (code,
    initialised data, reserved data), the label-generating segment allocators,
    the placeholder/back-patch pair, and one emitter per instruction mnemonic. */
module Codegen {
  import opened Wrappers
  import opened Decimal

  datatype Codegen = Codegen(instructions: seq<string>, data: seq<string>, bss: seq<string>)

  /** Indentation of every instruction line. */
  const Spacing: string := "    "

  function New(): (cg: Codegen)
    ensures |cg.instructions| == 0 && |cg.data| == 0 && |cg.bss| == 0
  {
    Codegen([], [], [])
  }

  /** The index the next appended instruction line will occupy. */
  function GetId(cg: Codegen): (id: nat)
    ensures id == |cg.instructions|
  {
    |cg.instructions|
  }

  // ---------------------------------------------------------------- data segment

  function DataLabel(id: nat): string {
    "data" + NatToString(id)
  }

  function LenLabel(id: nat): string {
    "len" + NatToString(id)
  }

  /** Adds a byte literal to the data segment and returns its id, the data
      length before the call. Two lines are appended: the labelled literal and a
      length symbol computed by the assembler. The size argument is unused. */
  function AddDataSeg(cg: Codegen, content: string, size: nat): (r: (Codegen, nat))
    ensures r.1 == |cg.data|
    ensures r.0.instructions == cg.instructions && r.0.bss == cg.bss
    ensures r.0.data == cg.data + [DataLabel(r.1) + " db " + content, LenLabel(r.1) + " equ $ - " + DataLabel(r.1)]
  {
    var id := |cg.data|;
    var name := DataLabel(id);
    (cg.(data := cg.data + [name + " db " + content, LenLabel(id) + " equ $ - " + name]), id)
  }

  /** A data segment built only by `AddDataSeg`: entries come in pairs, the
      pair at index `i` defines `data{i}` and then `len{i}`. */
  predicate DataWellFormed(d: seq<string>) {
    && |d| % 2 == 0
    && forall i :: 0 <= i < |d| && i % 2 == 0 ==> DataPair(d, i)
  }

  /** Lines `i` and `i + 1` define `data{i}` and its length `len{i}`. */
  predicate DataPair(d: seq<string>, i: nat) {
    && i + 1 < |d|
    && DataLabel(i) + " db " <= d[i]
    && d[i + 1] == LenLabel(i) + " equ $ - " + DataLabel(i)
  }

  lemma AddDataSegPreservesWellFormed(cg: Codegen, content: string, size: nat)
    requires DataWellFormed(cg.data)
    ensures DataWellFormed(AddDataSeg(cg, content, size).0.data)
  {
    var d := AddDataSeg(cg, content, size).0.data;
    var id := |cg.data|;
    assert d[id] == DataLabel(id) + " db " + content;
    assert DataLabel(id) + " db " <= d[id];
    assert DataPair(d, id);
    forall i | 0 <= i < |d| && i % 2 == 0
      ensures DataPair(d, i)
    {
      if i < id {
        assert DataPair(cg.data, i);
        assert d[i] == cg.data[i] && d[i + 1] == cg.data[i + 1];
      }
    }
  }

  /** The id returned is the next even number: two successive additions get ids
      that differ by two, so they never collide. The size is ignored. */
  lemma SuccessiveDataIds(cg: Codegen, c1: string, s1: nat, c2: string, s2: nat)
    requires DataWellFormed(cg.data)
    ensures var (cg1, id1) := AddDataSeg(cg, c1, s1);
            var (cg2, id2) := AddDataSeg(cg1, c2, s2);
            id1 % 2 == 0 && id2 == id1 + 2 && DataLabel(id1) != DataLabel(id2)
            && AddDataSeg(cg, c1, s2) == AddDataSeg(cg, c1, s1)
  {
    var id1 := |cg.data|;
    NatToStringInjective(id1, id1 + 2);
    assert DataLabel(id1)[4..] == NatToString(id1);
    assert DataLabel(id1 + 2)[4..] == NatToString(id1 + 2);
  }

  /** In a well-formed data segment each label `data{i}` is defined by exactly
      one line: no other line starts with `data{i} `. */
  lemma DataLabelDefinedOnce(d: seq<string>, i: nat, j: nat)
    requires DataWellFormed(d)
    requires i < |d| && i % 2 == 0 && j < |d|
    requires DataLabel(i) + " " <= d[j]
    ensures i == j
  {
    if j % 2 == 1 {
      LengthLineIsNotData(d, i, j);
    } else {
      assert DataPair(d, j);
      DataEntryNumber(d[j], i, j);
    }
  }

  /** The second line of each pair starts with `len`, never with `data`. */
  lemma LengthLineIsNotData(d: seq<string>, i: nat, j: nat)
    requires DataWellFormed(d)
    requires j < |d| && j % 2 == 1
    ensures !(DataLabel(i) + " " <= d[j])
  {
    var k := j - 1;
    assert DataPair(d, k);
    var line := d[j];
    assert line == LenLabel(k) + " equ $ - " + DataLabel(k);
    assert line[0] == 'l';
    assert (DataLabel(i) + " ")[0] == 'd';
  }

  /** The number after `data` in a line that starts with both `data{j} db ` and `data{i} `. */
  lemma DataEntryNumber(line: string, i: nat, j: nat)
    requires DataLabel(j) + " db " <= line
    requires DataLabel(i) + " " <= line
    ensures i == j
  {
    var t := line[4..];
    assert NatToString(j) + " " <= t by {
      assert DataLabel(j) + " db " == "data" + (NatToString(j) + " db ");
    }
    assert NatToString(i) + " " <= t by {
      assert DataLabel(i) + " " == "data" + (NatToString(i) + " ");
    }
    DigitsBeforeSeparator(NatToString(i), NatToString(j), ' ', t);
    NatToStringInjective(i, j);
  }

  // ----------------------------------------------------------------- bss segment

  function BssLabel(n: nat): string {
    "arr" + NatToString(n)
  }

  /** Reserves `size` uninitialised bytes under a fresh label `arr{n}`, where
      `n` is the bss length before the call, and returns that label. */
  function AddBssSeg(cg: Codegen, size: nat): (r: (Codegen, string))
    ensures r.1 == BssLabel(|cg.bss|)
    ensures r.0.instructions == cg.instructions && r.0.data == cg.data
    ensures r.0.bss == cg.bss + [r.1 + ": resb " + NatToString(size)]
  {
    var tag := "arr" + NatToString(|cg.bss|);
    (cg.(bss := cg.bss + [tag + ": resb " + NatToString(size)]), tag)
  }

  /** A bss segment built only by `AddBssSeg`: line `i` reserves `arr{i}`. */
  predicate BssWellFormed(b: seq<string>) {
    forall i :: 0 <= i < |b| ==> BssLabel(i) + ": resb " <= b[i]
  }

  lemma AddBssSegPreservesWellFormed(cg: Codegen, size: nat)
    requires BssWellFormed(cg.bss)
    ensures BssWellFormed(AddBssSeg(cg, size).0.bss)
  {
    var b := AddBssSeg(cg, size).0.bss;
    assert BssLabel(|cg.bss|) + ": resb " <= b[|cg.bss|];
  }

  /** In a well-formed bss segment each label `arr{i}` is defined by exactly one line. */
  lemma BssLabelDefinedOnce(b: seq<string>, i: nat, j: nat)
    requires BssWellFormed(b)
    requires j < |b|
    requires BssLabel(i) + ":" <= b[j]
    ensures i == j
  {
    var t := b[j][3..];
    assert BssLabel(j) + ": resb " <= b[j];
    assert NatToString(j) + ":" <= t by {
      assert BssLabel(j) + ": resb " == "arr" + (NatToString(j) + ": resb ");
    }
    assert NatToString(i) + ":" <= t by {
      assert BssLabel(i) + ":" == "arr" + (NatToString(i) + ":");
    }
    DigitsBeforeSeparator(NatToString(i), NatToString(j), ':', t);
    NatToStringInjective(i, j);
  }

  // ------------------------------------------------------ placeholder / back-patch

  /** Reserves an empty instruction line and returns its index. */
  function PlaceHolder(cg: Codegen): (r: (Codegen, nat))
    ensures r.1 == |cg.instructions| && r.1 < |r.0.instructions|
    ensures r.0.instructions == cg.instructions + [""] && r.0.instructions[r.1] == ""
    ensures r.0.data == cg.data && r.0.bss == cg.bss
  {
    var buf := cg.instructions + [""];
    (cg.(instructions := buf), |buf| - 1)
  }

  function InsertRaw(cg: Codegen, line: string): (r: Codegen)
    ensures r.instructions == cg.instructions + [line]
    ensures r.data == cg.data && r.bss == cg.bss
  {
    cg.(instructions := cg.instructions + [line])
  }

  /** Overwrites instruction line `index`. The source compares against
      `len - 1`, so the index must lie strictly before the last line; an empty
      buffer makes `len - 1` underflow, which is excluded by the precondition. */
  function InsertIntoRaw(cg: Codegen, index: nat, line: string): (r: (Codegen, Outcome))
    requires |cg.instructions| > 0
    ensures r.1.Pass? <==> index < |cg.instructions| - 1
    ensures r.1.Pass? ==>
              && |r.0.instructions| == |cg.instructions|
              && r.0.instructions[index] == line
              && (forall k :: 0 <= k < |cg.instructions| && k != index ==> r.0.instructions[k] == cg.instructions[k])
              && r.0.data == cg.data && r.0.bss == cg.bss
    ensures r.1.Fail? ==> r.0 == cg && r.1.error == "index out of bounds!"
  {
    if index < |cg.instructions| - 1 then
      (cg.(instructions := cg.instructions[index := line]), Pass)
    else
      (cg, Fail("index out of bounds!"))
  }

  /** The last line of the buffer can never be patched. */
  lemma LastLineNeverPatched(cg: Codegen, line: string)
    requires |cg.instructions| > 0
    ensures InsertIntoRaw(cg, |cg.instructions| - 1, line).1.Fail?
  {
  }

  /** The back-patch protocol: a reserved slot cannot be filled while it is
      still the last line, and can be filled once any line follows it, which
      replaces the empty placeholder and nothing else. */
  lemma PatchAfterPlaceHolder(cg: Codegen, following: seq<string>, line: string)
    ensures var (c1, id) := PlaceHolder(cg);
            var c2 := c1.(instructions := c1.instructions + following);
            && (|following| == 0 ==> InsertIntoRaw(c2, id, line).1.Fail?)
            && (|following| > 0 ==>
                  InsertIntoRaw(c2, id, line) == (c2.(instructions := cg.instructions + [line] + following), Pass))
  {
    var (c1, id) := PlaceHolder(cg);
    var c2 := c1.(instructions := c1.instructions + following);
    if |following| > 0 {
      assert c2.instructions[id := line] == cg.instructions + [line] + following;
    }
  }

  // -------------------------------------------------------------------- emitters

  /** The instruction mnemonics the buffer has an emitter for. */
  datatype Mnemonic =
    | Lea | Mov | Cmove | Cmovne | Cmovg | Cmovl | Cmovge | Cmovle
    | Push | Pop | Add | Sub | Imul | Idiv | Or | And | Sal | Sar | Cmp | Test
    | Cqo | Neg | Not | Call | Jmp | Jz | Jnz | Syscall | Leave | Ret

  function MnemonicName(m: Mnemonic): string {
    match m
    case Lea => "lea" case Mov => "mov" case Cmove => "cmove" case Cmovne => "cmovne"
    case Cmovg => "cmovg" case Cmovl => "cmovl" case Cmovge => "cmovge" case Cmovle => "cmovle"
    case Push => "push" case Pop => "pop" case Add => "add" case Sub => "sub"
    case Imul => "imul" case Idiv => "idiv" case Or => "or" case And => "and"
    case Sal => "sal" case Sar => "sar" case Cmp => "cmp" case Test => "test"
    case Cqo => "cqo" case Neg => "neg" case Not => "not" case Call => "call"
    case Jmp => "jmp" case Jz => "jz" case Jnz => "jnz" case Syscall => "syscall"
    case Leave => "leave" case Ret => "ret"
  }

  /** How many operands each emitter takes. */
  function Arity(m: Mnemonic): nat {
    match m
    case Cqo | Syscall | Leave | Ret => 0
    case Push | Pop | Idiv | Neg | Not | Call | Jmp | Jz | Jnz => 1
    case _ => 2
  }

  function MnemonicFromName(s: string): Option<Mnemonic> {
    match s
    case "lea" => Some(Lea) case "mov" => Some(Mov)
    case "cmove" => Some(Cmove) case "cmovne" => Some(Cmovne)
    case "cmovg" => Some(Cmovg) case "cmovl" => Some(Cmovl)
    case "cmovge" => Some(Cmovge) case "cmovle" => Some(Cmovle)
    case "push" => Some(Push) case "pop" => Some(Pop)
    case "add" => Some(Add) case "sub" => Some(Sub)
    case "imul" => Some(Imul) case "idiv" => Some(Idiv)
    case "or" => Some(Or) case "and" => Some(And)
    case "sal" => Some(Sal) case "sar" => Some(Sar)
    case "cmp" => Some(Cmp) case "test" => Some(Test)
    case "cqo" => Some(Cqo) case "neg" => Some(Neg)
    case "not" => Some(Not) case "call" => Some(Call)
    case "jmp" => Some(Jmp) case "jz" => Some(Jz)
    case "jnz" => Some(Jnz) case "syscall" => Some(Syscall)
    case "leave" => Some(Leave) case "ret" => Some(Ret)
    case _ => None
  }

  predicate NoSpace(s: string) {
    forall i :: 0 <= i < |s| ==> s[i] != ' '
  }

  lemma MnemonicNameRoundTrip(m: Mnemonic)
    ensures MnemonicFromName(MnemonicName(m)) == Some(m)
  {
  }

  lemma MnemonicNameNoSpace(m: Mnemonic)
    ensures NoSpace(MnemonicName(m))
  {
  }

  /** Operands separated by `sep`, as the emitters' `format!` strings lay them out. */
  function Join(ops: seq<string>, sep: string): string
    decreases |ops|
  {
    if |ops| == 0 then "" else if |ops| == 1 then ops[0] else ops[0] + sep + Join(ops[1..], sep)
  }

  /** Splits a string at its first space into the word before it and the text after it. */
  function SplitWord(s: string): (string, string)
    decreases |s|
  {
    if |s| == 0 then ("", "")
    else if s[0] == ' ' then ("", s[1..])
    else var (w, rest) := SplitWord(s[1..]); ([s[0]] + w, rest)
  }

  lemma {:induction false} SplitWordAt(w: string, rest: string)
    requires NoSpace(w)
    ensures SplitWord(w + " " + rest) == (w, rest)
    ensures SplitWord(w) == (w, "")
    decreases |w|
  {
    if |w| > 0 {
      assert (w + " " + rest)[1..] == w[1..] + " " + rest;
      SplitWordAt(w[1..], rest);
      assert [w[0]] + w[1..] == w;
    } else {
      assert w + " " + rest == [' '] + rest;
    }
  }

  /** Reads an instruction line back: an indented line whose first word is a
      mnemonic, and the operand text after it. Labels and other lines read as None. */
  function DecodeInstruction(line: string): Option<(Mnemonic, string)> {
    if |line| >= |Spacing| && line[..|Spacing|] == Spacing then
      var (w, rest) := SplitWord(line[|Spacing|..]);
      match MnemonicFromName(w)
      case Some(m) => Some((m, rest))
      case None => None
    else None
  }

  /** An instruction line without its indentation: the mnemonic and, when
      there are operands, a space and the operands joined by ", ". */
  function InstructionText(m: Mnemonic, ops: seq<string>): string {
    if |ops| == 0 then MnemonicName(m) else MnemonicName(m) + " " + Join(ops, ", ")
  }

  /** The text of one instruction line: four spaces, then the instruction. */
  function InstructionLine(m: Mnemonic, ops: seq<string>): string {
    Spacing + InstructionText(m, ops)
  }

  /** An indented line is read from the first word after the indentation. */
  lemma DecodeIndented(text: string)
    ensures DecodeInstruction(Spacing + text)
            == match MnemonicFromName(SplitWord(text).0)
               case Some(m) => Some((m, SplitWord(text).1))
               case None => None
  {
    var line := Spacing + text;
    assert line[..|Spacing|] == Spacing && line[|Spacing|..] == text;
  }

  /** The mnemonic is the first word of the instruction, the operands the rest. */
  lemma InstructionTextSplits(m: Mnemonic, ops: seq<string>)
    ensures SplitWord(InstructionText(m, ops)) == (MnemonicName(m), Join(ops, ", "))
  {
    MnemonicNameNoSpace(m);
    SplitWordAt(MnemonicName(m), Join(ops, ", "));
  }

  /** Every instruction line reads back as its mnemonic and its operand text. */
  lemma InstructionLineDecodes(m: Mnemonic, ops: seq<string>)
    ensures DecodeInstruction(InstructionLine(m, ops)) == Some((m, Join(ops, ", ")))
  {
    DecodeIndented(InstructionText(m, ops));
    InstructionTextSplits(m, ops);
    MnemonicNameRoundTrip(m);
  }

  /** Appends one instruction line for mnemonic `m` with operands `ops`: the
      buffer grows by one line that reads back as `m` and its operands, no
      existing line changes, and data and bss are untouched. */
  function Emit(cg: Codegen, m: Mnemonic, ops: seq<string>): (r: Codegen)
    requires |ops| == Arity(m)
    ensures r.data == cg.data && r.bss == cg.bss
    ensures r.instructions == cg.instructions + [InstructionLine(m, ops)]
    ensures DecodeInstruction(InstructionLine(m, ops)) == Some((m, Join(ops, ", ")))
  {
    InstructionLineDecodes(m, ops);
    cg.(instructions := cg.instructions + [InstructionLine(m, ops)])
  }

  /** Appends the label line `name:`, unindented, so that it never reads as an
      instruction unless the name itself starts with a space. */
  function Tag(cg: Codegen, name: string): (r: Codegen)
    ensures r.data == cg.data && r.bss == cg.bss
    ensures r.instructions == cg.instructions + [name + ":"]
    ensures |name| == 0 || name[0] != ' ' ==> DecodeInstruction(name + ":").None?
  {
    var line := name + ":";
    assert line[0] == if |name| == 0 then ':' else name[0];
    cg.(instructions := cg.instructions + [line])
  }

  /** Sample lines as the source's emitters print them. */
  lemma LineExamples()
    ensures InstructionLine(Mov, ["rbp", "rsp"]) == "    mov rbp, rsp"
    ensures InstructionLine(Push, ["rbp"]) == "    push rbp"
    ensures InstructionLine(Ret, []) == "    ret"
  {
  }

  // ------------------------------------------------------- how the parts fit

  /** A new buffer is the base case of both segment invariants. */
  lemma NewIsWellFormed()
    ensures DataWellFormed(New().data) && BssWellFormed(New().bss)
  {
  }

  /** `get_id` names the slot the next emitted line lands in: after emitting,
      the line at the id taken before reads back as what was emitted, and the
      id has moved on by one. */
  lemma EmitLandsAtId(cg: Codegen, m: Mnemonic, ops: seq<string>)
    requires |ops| == Arity(m)
    ensures var r := Emit(cg, m, ops);
            && GetId(cg) < |r.instructions|
            && r.instructions[GetId(cg)] == InstructionLine(m, ops)
            && DecodeInstruction(r.instructions[GetId(cg)]) == Some((m, Join(ops, ", ")))
            && GetId(r) == GetId(cg) + 1
  {
  }

  /** Back-patching a placeholder once a raw line follows it gives the buffer
      that inserting the patch in order would have given. */
  lemma PatchBeforeRawLine(cg: Codegen, next: string, line: string)
    ensures var (c1, id) := PlaceHolder(cg);
            InsertIntoRaw(InsertRaw(c1, next), id, line) == (InsertRaw(InsertRaw(cg, line), next), Pass)
  {
    var (c1, id) := PlaceHolder(cg);
    assert InsertRaw(c1, next).instructions[id := line] == cg.instructions + [line] + [next];
  }

  /** The same for a placeholder followed by an emitted instruction, the way a
      forward jump is patched once the code after it exists. */
  lemma PatchBeforeInstruction(cg: Codegen, m: Mnemonic, ops: seq<string>, line: string)
    requires |ops| == Arity(m)
    ensures var (c1, id) := PlaceHolder(cg);
            InsertIntoRaw(Emit(c1, m, ops), id, line) == (Emit(InsertRaw(cg, line), m, ops), Pass)
  {
    var (c1, id) := PlaceHolder(cg);
    assert Emit(c1, m, ops).instructions[id := line] == cg.instructions + [line] + [InstructionLine(m, ops)];
  }
}

=== FILE: compiler.dfy ===
/** The compiler context and the program driver: stack-slot arithmetic, the
    error counter, deferred built-in emission, the System V argument registers,
    frame-size rounding, declaration collection, entry-point synthesis and the
    top-level compile pass. */
module Compiler {
  import opened Wrappers
  import opened Decimal
  import opened Types
  import opened Registers
  import Codegen

  // ------------------------------------------------------------- variables

  /** A variable's entry in the scope tables: its byte offset in the frame,
      its type and element type, and whether it is mutable. */
  datatype VariableMap = VariableMap(
    offsetInner: nat,
    offset: nat,
    vtype: VariableType,
    vtypeInner: VariableType,
    isMut: bool)

  const I32Max: int := 0x7fff_ffff

  /** The variable's address relative to the frame pointer. Its slot is the
      `size` bytes that end at `-offset`, so the frame grows downwards. The
      source casts the sum to `i32`; the precondition keeps that cast exact. */
  function StackOffset(v: VariableMap): (r: int)
    requires v.offset + v.vtype.size <= I32Max
    ensures -I32Max <= r <= 0
    ensures r < 0 <==> v.offset + v.vtype.size > 0
    ensures r + v.vtype.size + v.offset == 0
  {
    -(v.offset + v.vtype.size)
  }

  /** A variable placed after another (its offset at least the first one's
      offset plus size) gets a slot entirely below the first one's. */
  lemma LaterVariableLiesBelow(a: VariableMap, b: VariableMap)
    requires a.offset + a.vtype.size <= I32Max && b.offset + b.vtype.size <= I32Max
    requires b.offset >= a.offset + a.vtype.size
    ensures StackOffset(b) + b.vtype.size <= StackOffset(a)
    ensures b.vtype.size > 0 ==> StackOffset(b) < StackOffset(a)
  {
  }

  // ---------------------------------------------------------------- context

  /** A built-in runtime routine; its body is produced by code outside this model. */
  datatype Bif = Bif(name: string)

  /** All state threaded through the compilation of one source file. `ffiMap`
      is the code generator's table of foreign bindings. */
  datatype Context = Context(
    codegen: Codegen.Codegen,
    scopedBlocks: seq<Block>,
    variablesMap: map<string, VariableMap>,
    functionsMap: map<string, FunctionDecl>,
    structsMap: map<string, StructDef>,
    bifSet: set<Bif>,
    memOffset: nat,
    programFile: string,
    errors: nat,
    ffiMap: map<string, string>)

  function New(programFile: string): (cc: Context)
    ensures cc.errors == 0 && cc.memOffset == 0 && cc.programFile == programFile
    ensures |cc.scopedBlocks| == 0 && |cc.variablesMap| == 0 && |cc.functionsMap| == 0
    ensures |cc.structsMap| == 0 && |cc.bifSet| == 0 && |cc.ffiMap| == 0
    ensures |cc.codegen.instructions| == 0 && |cc.codegen.data| == 0 && |cc.codegen.bss| == 0
  {
    Context(Codegen.New(), [], map[], map[], map[], {}, 0, programFile, 0, map[])
  }

  /** Records one diagnostic: the counter goes up by exactly one and nothing else changes. */
  function Error(cc: Context): (r: Context)
    ensures r.errors == cc.errors + 1
    ensures r == cc.(errors := r.errors)
  {
    cc.(errors := cc.errors + 1)
  }

  // ------------------------------------------------------------- built-ins

  /** `order` lists every member of `s` exactly once: one iteration order of the set. */
  predicate Enumerates(order: seq<Bif>, s: set<Bif>) {
    && (forall b :: b in s ==> b in order)
    && (forall i :: 0 <= i < |order| ==> order[i] in s)
    && (forall i, j :: 0 <= i < j < |order| ==> order[i] != order[j])
  }

  /** The bodies of the routines in `order`, one after another. */
  function Implementations(order: seq<Bif>, impl: Bif -> seq<string>): seq<string>
    decreases |order|
  {
    if |order| == 0 then [] else impl(order[0]) + Implementations(order[1..], impl)
  }

  lemma {:induction false} ImplementationsSnoc(order: seq<Bif>, b: Bif, impl: Bif -> seq<string>)
    ensures Implementations(order + [b], impl) == Implementations(order, impl) + impl(b)
    decreases |order|
  {
    if |order| > 0 {
      assert (order + [b])[1..] == order[1..] + [b];
      ImplementationsSnoc(order[1..], b, impl);
    } else {
      assert order + [b] == [b];
    }
  }

  /** A sequence without repetitions holds each of its elements exactly once. */
  lemma {:induction false} DistinctCount(order: seq<Bif>, b: Bif)
    requires forall i, j :: 0 <= i < j < |order| ==> order[i] != order[j]
    ensures multiset(order)[b] == if b in order then 1 else 0
    decreases |order|
  {
    if |order| > 0 {
      var rest := order[1..];
      assert order == [order[0]] + rest;
      assert forall i, j :: 0 <= i < j < |rest| ==> rest[i] != rest[j] by {
        forall i, j | 0 <= i < j < |rest| ensures rest[i] != rest[j] {
          assert rest[i] == order[i + 1] && rest[j] == order[j + 1];
        }
      }
      DistinctCount(rest, b);
      if b == order[0] {
        assert b !in rest by {
          forall j | 0 <= j < |rest| ensures rest[j] != b {
            assert rest[j] == order[j + 1];
          }
        }
      }
    }
  }

  /** An enumeration of a set holds each member once and nothing else: every
      used built-in is implemented exactly once and unused ones not at all. */
  lemma EnumerationCountsOnce(order: seq<Bif>, s: set<Bif>, b: Bif)
    requires Enumerates(order, s)
    ensures multiset(order)[b] == if b in s then 1 else 0
  {
    DistinctCount(order, b);
  }

  /** Asks every built-in in the set to emit its body once, in the set's
      iteration order `order`; `impl` gives each routine's lines. */
  method ImplBifs(cc: Context, order: seq<Bif>, impl: Bif -> seq<string>) returns (r: Context)
    requires Enumerates(order, cc.bifSet)
    ensures r == cc.(codegen := r.codegen)
    ensures r.codegen.data == cc.codegen.data && r.codegen.bss == cc.codegen.bss
    ensures r.codegen.instructions == cc.codegen.instructions + Implementations(order, impl)
  {
    r := cc;
    var i := 0;
    while i < |order|
      invariant 0 <= i <= |order|
      invariant r == cc.(codegen := r.codegen)
      invariant r.codegen.data == cc.codegen.data && r.codegen.bss == cc.codegen.bss
      invariant r.codegen.instructions == cc.codegen.instructions + Implementations(order[..i], impl)
    {
      ImplementationsSnoc(order[..i], order[i], impl);
      assert order[..i + 1] == order[..i] + [order[i]];
      r := r.(codegen := r.codegen.(instructions := r.codegen.instructions + impl(order[i])));
      i := i + 1;
    }
    assert order[..i] == order;
  }

  // --------------------------------------------------- argument registers

  /** The integer argument registers of the System V AMD64 psABI, section
      3.2.3 "Parameter Passing", in calling order. */
  const ArgumentFamilies: seq<Family> := [DestIndex, SourceIndex, Data, Counter, Ext8, Ext9]

  /** The 64-bit register carrying argument `n`; a seventh argument is unreachable. */
  function ArgumentRegister(n: nat): (r: R)
    requires n < 6
    ensures Code(r) == 16 * 8 + FamilyIndex(ArgumentFamilies[n])
  {
    if n == 0 then RDI else if n == 1 then RSI else if n == 2 then RDX
    else if n == 3 then RCX else if n == 4 then R8 else R9
  }

  /** Argument `n`'s register narrowed to the element size of `vtype`: the
      same family, in the same order, at the requested width. */
  function ArgumentRegisterSized(n: nat, vtype: VariableType): (r: R)
    requires n < 6 && IsItemSize(vtype.itemSize)
    ensures Code(r) % 16 == Code(ArgumentRegister(n)) % 16
    ensures Code(r) / 16 == vtype.itemSize
    ensures vtype.itemSize == 8 ==> r == ArgumentRegister(n)
  {
    var r := Sized(ArgumentFamilies[n], vtype.itemSize);
    CodeInjective(r, ArgumentRegister(n));
    r
  }

  lemma ArgumentRegisterNames()
    ensures Name(ArgumentRegister(0)) == "rdi" && Name(ArgumentRegister(1)) == "rsi"
    ensures Name(ArgumentRegister(2)) == "rdx" && Name(ArgumentRegister(3)) == "rcx"
    ensures Name(ArgumentRegister(4)) == "r8" && Name(ArgumentRegister(5)) == "r9"
  {
  }

  // ------------------------------------------------------------ frame size

  function Pow2(k: nat): (p: nat)
    ensures p >= 1
  {
    if k == 0 then 1 else 2 * Pow2(k - 1)
  }

  /** Powers of two, defined by halving. */
  predicate IsPowerOfTwo(p: nat)
    decreases p
  {
    p == 1 || (p >= 2 && p % 2 == 0 && IsPowerOfTwo(p / 2))
  }

  lemma {:induction false} Pow2IsPowerOfTwo(k: nat)
    ensures IsPowerOfTwo(Pow2(k))
  {
    if k > 0 {
      Pow2IsPowerOfTwo(k - 1);
      assert Pow2(k) / 2 == Pow2(k - 1);
    }
  }

  lemma {:induction false} Pow2Monotone(i: nat, j: nat)
    requires i < j
    ensures 2 * Pow2(i) <= Pow2(j)
    decreases j
  {
    if i + 1 < j {
      Pow2Monotone(i, j - 1);
    }
  }

  /** Rust's `ilog2`: the position of the highest set bit. */
  function ILog2(n: nat): (k: nat)
    requires n >= 1
    ensures Pow2(k) <= n < 2 * Pow2(k)
    decreases n
  {
    if n == 1 then 0 else 1 + ILog2(n / 2)
  }

  const UsizeModulus: nat := 0x1_0000_0000_0000_0000

  lemma {:induction false} Pow2Add(a: nat, b: nat)
    ensures Pow2(a + b) == Pow2(a) * Pow2(b)
    decreases a
  {
    if a > 0 {
      Pow2Add(a - 1, b);
    }
  }

  lemma Pow2Of24()
    ensures Pow2(24) == 0x100_0000
  {
    assert Pow2(3) == 8;
    Pow2Add(3, 3);
    Pow2Add(6, 6);
    Pow2Add(12, 12);
  }

  lemma Pow2Of63()
    ensures Pow2(63) == UsizeModulus / 2
  {
    Pow2Of24();
    Pow2Add(24, 24);
    Pow2Add(48, 12);
    Pow2Add(60, 3);
  }

  /** Below 2^63 the highest set bit is below 63; from 2^63 up to the end of
      the `usize` range it is bit 63. */
  lemma HighestBitOfUsize(n: nat)
    requires 1 <= n < UsizeModulus
    ensures n < UsizeModulus / 2 ==> ILog2(n) < 63
    ensures n >= UsizeModulus / 2 ==> ILog2(n) == 63
  {
    var k := ILog2(n);
    Pow2Of63();
    if k < 63 {
      Pow2Monotone(k, 63);
    } else if k > 63 {
      Pow2Monotone(63, k);
    }
  }

  /** `2 << n.ilog2()` on a 64-bit `usize`: the smallest power of two strictly
      above `n`. Shifting 2 by 63 pushes the bit out, so from 2^63 on the
      result wraps to 0. `ilog2` panics on 0, hence `n >= 1`. */
  function FrameSize(n: nat): (p: nat)
    requires 1 <= n < UsizeModulus
    ensures n < UsizeModulus / 2 ==> IsPowerOfTwo(p) && n < p <= 2 * n
    ensures n >= UsizeModulus / 2 ==> p == 0
  {
    FrameSizeBounds(n);
    (2 * Pow2(ILog2(n))) % UsizeModulus
  }

  lemma FrameSizeBounds(n: nat)
    requires 1 <= n < UsizeModulus
    ensures var p := (2 * Pow2(ILog2(n))) % UsizeModulus;
            && (n < UsizeModulus / 2 ==> IsPowerOfTwo(p) && n < p <= 2 * n)
            && (n >= UsizeModulus / 2 ==> p == 0)
  {
    HighestBitOfUsize(n);
    var q := 2 * Pow2(ILog2(n));
    if n < UsizeModulus / 2 {
      FrameSizeInRange(n);
      assert q % UsizeModulus == q;
    } else {
      Pow2Of63();
      assert q == UsizeModulus;
    }
  }

  /** Below 2^63 no bit is shifted out. */
  lemma FrameSizeInRange(n: nat)
    requires 1 <= n && ILog2(n) < 63
    ensures var q := 2 * Pow2(ILog2(n));
            q < UsizeModulus && IsPowerOfTwo(q) && n < q <= 2 * n
  {
    var k := ILog2(n);
    Pow2IsPowerOfTwo(k + 1);
    assert Pow2(k + 1) == 2 * Pow2(k);
    Pow2Of63();
    if k + 1 < 63 {
      Pow2Monotone(k + 1, 63);
    }
  }

  // ------------------------------------------------- declaration collection

  /** What an item registers in a symbol table, as a key and a value. */
  function FunctionEntry(item: ProgramItem): Option<(string, FunctionDecl)> {
    match item
    case Func(f) => Some((f.decl.ident, f.decl))
    case FFI(_, decl) => Some((decl.ident, decl))
    case _ => None
  }

  function FfiEntry(item: ProgramItem): Option<(string, string)> {
    match item
    case FFI(binding, decl) => Some((decl.ident, binding))
    case _ => None
  }

  function StructEntry(item: ProgramItem): Option<(string, StructDef)> {
    match item
    case Struct(s) => Some((s.ident, s))
    case _ => None
  }

  /** The keys the items register through `entry`. */
  function Names<T>(items: seq<ProgramItem>, entry: ProgramItem -> Option<(string, T)>): set<string> {
    set i | 0 <= i < |items| && entry(items[i]).Some? :: entry(items[i]).value.0
  }

  /** The value registered under `k` by the last item that registers `k`. */
  function LastEntry<T>(items: seq<ProgramItem>, entry: ProgramItem -> Option<(string, T)>, k: string): Option<T>
    decreases |items|
  {
    if |items| == 0 then None
    else
      var e := entry(items[|items| - 1]);
      if e.Some? && e.value.0 == k then Some(e.value.1) else LastEntry(items[..|items| - 1], entry, k)
  }

  lemma NamesSnoc<T>(items: seq<ProgramItem>, entry: ProgramItem -> Option<(string, T)>)
    requires |items| > 0
    ensures var e := entry(items[|items| - 1]);
            Names(items, entry) == Names(items[..|items| - 1], entry) + (if e.Some? then {e.value.0} else {})
  {
    var prefix := items[..|items| - 1];
    var e := entry(items[|items| - 1]);
    forall k | k in Names(items, entry)
      ensures k in Names(prefix, entry) + (if e.Some? then {e.value.0} else {})
    {
      var i :| 0 <= i < |items| && entry(items[i]).Some? && entry(items[i]).value.0 == k;
      if i < |items| - 1 {
        assert prefix[i] == items[i];
      }
    }
    forall k | k in Names(prefix, entry)
      ensures k in Names(items, entry)
    {
      var i :| 0 <= i < |prefix| && entry(prefix[i]).Some? && entry(prefix[i]).value.0 == k;
      assert items[i] == prefix[i];
    }
  }

  /** The last registration of a key exists exactly when some item registers it. */
  lemma {:induction false} LastEntryExists<T>(items: seq<ProgramItem>, entry: ProgramItem -> Option<(string, T)>, k: string)
    ensures LastEntry(items, entry, k).Some? <==> k in Names(items, entry)
    decreases |items|
  {
    if |items| > 0 {
      NamesSnoc(items, entry);
      LastEntryExists(items[..|items| - 1], entry, k);
    }
  }

  /** One step of `collect_types`. */
  function CollectItem(cc: Context, item: ProgramItem): Context {
    match item
    case Func(f) => cc.(functionsMap := cc.functionsMap[f.decl.ident := f.decl])
    case FFI(binding, decl) =>
      cc.(ffiMap := cc.ffiMap[decl.ident := binding], functionsMap := cc.functionsMap[decl.ident := decl])
    case Struct(s) => cc.(structsMap := cc.structsMap[s.ident := s])
    case StaticVar(_) => cc
  }

  /** The map `m` after registering every entry of `items` in order: the keys
      gained are exactly the registered names, a registered name maps to its
      last registration, and every other key keeps its value. */
  predicate Registered<T(==)>(m: map<string, T>, items: seq<ProgramItem>, entry: ProgramItem -> Option<(string, T)>, r: map<string, T>) {
    && r.Keys == m.Keys + Names(items, entry)
    && (forall k :: k in Names(items, entry) ==> k in r && LastEntry(items, entry, k) == Some(r[k]))
    && (forall k :: k in m && k !in Names(items, entry) ==> k in r && r[k] == m[k])
  }

  lemma RegisteredStep<T>(m: map<string, T>, items: seq<ProgramItem>, entry: ProgramItem -> Option<(string, T)>, r0: map<string, T>)
    requires |items| > 0
    requires Registered(m, items[..|items| - 1], entry, r0)
    ensures var e := entry(items[|items| - 1]);
            Registered(m, items, entry, if e.Some? then r0[e.value.0 := e.value.1] else r0)
  {
    NamesSnoc(items, entry);
  }

  /** The first pass over the program: every function and foreign declaration
      is entered in `functionsMap`, foreign ones also in `ffiMap`, structs in
      `structsMap`; static variables register nothing; a later declaration of
      the same name replaces an earlier one. Nothing else in the context changes. */
  function CollectTypes(cc: Context, items: seq<ProgramItem>): (r: Context)
    ensures r == cc.(functionsMap := r.functionsMap, ffiMap := r.ffiMap, structsMap := r.structsMap)
    ensures Registered(cc.functionsMap, items, FunctionEntry, r.functionsMap)
    ensures Registered(cc.ffiMap, items, FfiEntry, r.ffiMap)
    ensures Registered(cc.structsMap, items, StructEntry, r.structsMap)
    decreases |items|
  {
    if |items| == 0 then
      assert Names(items, FunctionEntry) == {} && Names(items, FfiEntry) == {} && Names(items, StructEntry) == {};
      cc
    else
      var prev := CollectTypes(cc, items[..|items| - 1]);
      RegisteredStep(cc.functionsMap, items, FunctionEntry, prev.functionsMap);
      RegisteredStep(cc.ffiMap, items, FfiEntry, prev.ffiMap);
      RegisteredStep(cc.structsMap, items, StructEntry, prev.structsMap);
      CollectItem(prev, items[|items| - 1])
  }

  // ---------------------------------------------------- entry point synthesis

  /** The Linux x86-64 system call number of `exit`. */
  const ExitSyscall: nat := 60

  /** `_start:`, `push rbp`, `mov rbp, rsp`. */
  const EntryPrologue: seq<string> := [
    "_start" + ":",
    Codegen.InstructionLine(Codegen.Push, [Name(RBP)]),
    Codegen.InstructionLine(Codegen.Mov, [Name(RBP), Name(RSP)])]

  /** `call main`, then `exit(0)`: `mov rax, 60`, `mov rdi, 0`, `syscall`. */
  const EntryCall: seq<string> := [
    Codegen.InstructionLine(Codegen.Call, ["main"]),
    Codegen.InstructionLine(Codegen.Mov, [Name(RAX), NatToString(ExitSyscall)]),
    Codegen.InstructionLine(Codegen.Mov, [Name(RDI), NatToString(0)]),
    Codegen.InstructionLine(Codegen.Syscall, [])]

  /** The text of the entry point's frame lines. */
  lemma EntryFrameTexts()
    ensures EntryPrologue == ["_start:", "    push rbp", "    mov rbp, rsp"]
  {
    assert Name(RBP) == "rbp" && Name(RSP) == "rsp";
    OneOperandText(Codegen.Push, "rbp");
    MovText("rbp", "rsp");
    assert EntryPrologue[0] == "_start:";
    assert EntryPrologue[1] == "    push rbp";
    assert EntryPrologue[2] == "    mov rbp, rsp";
    assert EntryPrologue == [EntryPrologue[0], EntryPrologue[1], EntryPrologue[2]];
  }

  /** The text of the entry point's call and exit lines. */
  lemma EntryCallTexts()
    ensures EntryCall == ["    call main", "    mov rax, 60", "    mov rdi, 0", "    syscall"]
  {
    assert Name(RAX) == "rax" && Name(RDI) == "rdi";
    ExitNumberTexts();
    OneOperandText(Codegen.Call, "main");
    MovText("rax", "60");
    MovText("rdi", "0");
    assert EntryCall[0] == "    call main";
    assert EntryCall[1] == "    mov rax, 60";
    assert EntryCall[2] == "    mov rdi, 0";
    assert EntryCall[3] == "    syscall";
    assert EntryCall == [EntryCall[0], EntryCall[1], EntryCall[2], EntryCall[3]];
  }

  lemma ExitNumberTexts()
    ensures NatToString(ExitSyscall) == "60" && NatToString(0) == "0"
  {
    assert NatToString(ExitSyscall) == NatToString(6) + [DigitChar(0)];
  }

  /** A one-operand instruction line. */
  lemma OneOperandText(m: Codegen.Mnemonic, op: string)
    ensures Codegen.InstructionLine(m, [op]) == "    " + Codegen.MnemonicName(m) + " " + op
  {
  }

  /** A two-operand `mov` line. */
  lemma MovText(dst: string, src: string)
    ensures Codegen.InstructionLine(Codegen.Mov, [dst, src]) == "    mov " + dst + ", " + src
  {
    assert [dst, src][1..] == [src];
    assert Codegen.Join([dst, src], ", ") == dst + ", " + src;
    assert "    " + "mov" + " " == "    mov ";
  }

  /** The `_start` label and the frame set-up. */
  function EmitEntryFrame(cg: Codegen.Codegen): (r: Codegen.Codegen)
    ensures r.data == cg.data && r.bss == cg.bss
    ensures r.instructions == cg.instructions + EntryPrologue
  {
    var c1 := Codegen.Tag(cg, "_start");
    var c2 := Codegen.Emit(c1, Codegen.Push, [Name(RBP)]);
    var c3 := Codegen.Emit(c2, Codegen.Mov, [Name(RBP), Name(RSP)]);
    assert c1.instructions == cg.instructions + [EntryPrologue[0]];
    assert c2.instructions == c1.instructions + [EntryPrologue[1]];
    assert c3.instructions == c2.instructions + [EntryPrologue[2]];
    c3
  }

  /** The call into `main` and the `exit(0)` system call. */
  function EmitEntryCall(cg: Codegen.Codegen): (r: Codegen.Codegen)
    ensures r.data == cg.data && r.bss == cg.bss
    ensures r.instructions == cg.instructions + EntryCall
  {
    var c4 := Codegen.Emit(cg, Codegen.Call, ["main"]);
    var c5 := Codegen.Emit(c4, Codegen.Mov, [Name(RAX), NatToString(ExitSyscall)]);
    var c6 := Codegen.Emit(c5, Codegen.Mov, [Name(RDI), NatToString(0)]);
    var c7 := Codegen.Emit(c6, Codegen.Syscall, []);
    assert c4.instructions == cg.instructions + [EntryCall[0]];
    assert c5.instructions == c4.instructions + [EntryCall[1]];
    assert c6.instructions == c5.instructions + [EntryCall[2]];
    assert c7.instructions == c6.instructions + [EntryCall[3]];
    c7
  }

  /** Synthesises `_start`: a frame, a call to `main`, then `exit(0)`. Without
      a `main` the run aborts after the three frame lines. */
  function CompileInitFunction(cc: Context): (r: (Context, Outcome))
    ensures r.1.Pass? <==> "main" in cc.functionsMap
    ensures r.0 == cc.(codegen := r.0.codegen)
    ensures r.0.codegen.data == cc.codegen.data && r.0.codegen.bss == cc.codegen.bss
    ensures r.0.codegen.instructions
            == cc.codegen.instructions + EntryPrologue + (if r.1.Pass? then EntryCall else [])
  {
    var framed := EmitEntryFrame(cc.codegen);
    if "main" !in cc.functionsMap then
      (cc.(codegen := framed), Fail("Executable programs should have an entry point"))
    else
      (cc.(codegen := EmitEntryCall(framed)), Pass)
  }

  // -------------------------------------------------------------- compile

  /** The functions of a program, in source order. */
  function FunctionsOf(items: seq<ProgramItem>): (fs: seq<Function>)
    ensures forall f :: f in fs <==> Func(f) in items
    decreases |items|
  {
    if |items| == 0 then []
    else (if items[0].Func? then [items[0].fn] else []) + FunctionsOf(items[1..])
  }

  /** The filter keeps source order: the functions of two consecutive parts of
      a program are those of the first part followed by those of the second. */
  lemma {:induction false} FunctionsOfAppend(a: seq<ProgramItem>, b: seq<ProgramItem>)
    ensures FunctionsOf(a + b) == FunctionsOf(a) + FunctionsOf(b)
    decreases |a|
  {
    if |a| > 0 {
      assert (a + b)[1..] == a[1..] + b;
      FunctionsOfAppend(a[1..], b);
    } else {
      assert a + b == b;
    }
  }

  /** Compiles the given functions one after another. */
  function CompileAll(cc: Context, fs: seq<Function>, compileFunction: (Context, Function) -> Context): Context
    decreases |fs|
  {
    if |fs| == 0 then cc else CompileAll(compileFunction(cc, fs[0]), fs[1..], compileFunction)
  }

  /** The driver's loop: each `Func` item is handed to `compileFunction`;
      other items are skipped, so exactly the program's functions are
      compiled, in source order. */
  function CompileItems(cc: Context, items: seq<ProgramItem>, compileFunction: (Context, Function) -> Context): (r: Context)
    ensures r == CompileAll(cc, FunctionsOf(items), compileFunction)
    decreases |items|
  {
    if |items| == 0 then cc
    else
      var next := if items[0].Func? then compileFunction(cc, items[0].fn) else cc;
      var rest := FunctionsOf(items[1..]);
      var fs := FunctionsOf(items);
      assert items[0].Func? ==> fs == [items[0].fn] + rest && fs[0] == items[0].fn && fs[1..] == rest;
      assert !items[0].Func? ==> fs == rest;
      CompileItems(next, items[1..], compileFunction)
  }

  /** How a compilation ends: success, the fatal missing-entry error, failure
      after `errorCount` recorded diagnostics, or the internal scope check. */
  datatype CompileOutcome = Compiled | MissingEntry | Failed(errorCount: nat) | ScopeNotCleared

  /** The whole pass over a parsed program: collect declarations, synthesise
      the entry point, compile every function, then fail if any error was
      recorded, and otherwise insist that every scope was closed. */
  function Compile(cc: Context, items: seq<ProgramItem>, compileFunction: (Context, Function) -> Context): (r: (Context, CompileOutcome))
    ensures r.1 == MissingEntry <==> "main" !in cc.functionsMap && "main" !in Names(items, FunctionEntry)
    ensures r.1 == MissingEntry ==>
              r.0.codegen.instructions == cc.codegen.instructions + EntryPrologue
    ensures r.1 == Compiled <==>
              r.1 != MissingEntry && r.0.errors == 0 && |r.0.scopedBlocks| == 0
    ensures r.1.Failed? ==> r.1.errorCount == r.0.errors && r.0.errors > 0
    ensures r.1 == ScopeNotCleared ==> r.0.errors == 0 && |r.0.scopedBlocks| > 0
    ensures r.1 != MissingEntry ==>
              r.0 == CompileAll(CompileInitFunction(CollectTypes(cc, items)).0, FunctionsOf(items), compileFunction)
  {
    var collected := CollectTypes(cc, items);
    var (entered, outcome) := CompileInitFunction(collected);
    if outcome.Fail? then
      (entered, MissingEntry)
    else
      var done := CompileItems(entered, items, compileFunction);
      if done.errors > 0 then (done, Failed(done.errors))
      else if |done.scopedBlocks| > 0 then (done, ScopeNotCleared)
      else (done, Compiled)
  }

  /** A `compileFunction` that only appends code and keeps the error count
      and scope stack as it found them. */
  ghost predicate WellBehaved(compileFunction: (Context, Function) -> Context) {
    forall c: Context, f: Function ::
      var c' := compileFunction(c, f);
      && c'.errors == c.errors
      && c'.scopedBlocks == c.scopedBlocks
      && c.codegen.instructions <= c'.codegen.instructions
  }

  lemma {:induction false} CompileItemsAppends(cc: Context, items: seq<ProgramItem>, compileFunction: (Context, Function) -> Context)
    requires WellBehaved(compileFunction)
    ensures var done := CompileItems(cc, items, compileFunction);
            done.errors == cc.errors && done.scopedBlocks == cc.scopedBlocks
            && cc.codegen.instructions <= done.codegen.instructions
    decreases |items|
  {
    if |items| > 0 {
      var next := if items[0].Func? then compileFunction(cc, items[0].fn) else cc;
      CompileItemsAppends(next, items[1..], compileFunction);
    }
  }

  /** With a `compileFunction` that records no error, leaves the scope stack
      alone and only appends code, a file holding only `fn main() { }` compiles, and its code
      starts with `_start`, the call to `main` and the `exit(0)` system call. */
  lemma MainOnlyProgram(file: string, body: Block, ret: VariableType, compileFunction: (Context, Function) -> Context)
    requires WellBehaved(compileFunction)
    ensures var items := [Func(Function(FunctionDecl("main", [], ret), body))];
            var r := Compile(New(file), items, compileFunction);
            r.1 == Compiled && EntryPrologue + EntryCall <= r.0.codegen.instructions
  {
    var items := [Func(Function(FunctionDecl("main", [], ret), body))];
    var cc := New(file);
    var collected := CollectTypes(cc, items);
    assert "main" in Names(items, FunctionEntry) by {
      assert FunctionEntry(items[0]).value.0 == "main";
    }
    assert "main" in collected.functionsMap;
    assert collected.errors == 0 && |collected.scopedBlocks| == 0 && |collected.codegen.instructions| == 0;
    var (entered, outcome) := CompileInitFunction(collected);
    assert outcome.Pass?;
    assert entered.codegen.instructions == EntryPrologue + EntryCall;
    var done := CompileItems(entered, items, compileFunction);
    CompileItemsAppends(entered, items, compileFunction);
    assert Compile(cc, items, compileFunction) == (done, Compiled);
  }

  /** A `compileFunction` that never takes back a recorded diagnostic. */
  ghost predicate KeepsErrors(compileFunction: (Context, Function) -> Context) {
    forall c: Context, f: Function :: compileFunction(c, f).errors >= c.errors
  }

  lemma {:induction false} CompileAllKeepsErrors(cc: Context, fs: seq<Function>, compileFunction: (Context, Function) -> Context)
    requires KeepsErrors(compileFunction)
    ensures CompileAll(cc, fs, compileFunction).errors >= cc.errors
    decreases |fs|
  {
    if |fs| > 0 {
      CompileAllKeepsErrors(compileFunction(cc, fs[0]), fs[1..], compileFunction);
    }
  }

  /** Once `error` has recorded a diagnostic, no later stage can make the
      compilation succeed: it ends as a failure or with the missing entry point. */
  lemma ErrorPreventsSuccess(cc: Context, items: seq<ProgramItem>, compileFunction: (Context, Function) -> Context)
    requires KeepsErrors(compileFunction)
    ensures var r := Compile(Error(cc), items, compileFunction);
            r.1.Failed? || r.1 == MissingEntry
  {
    var collected := CollectTypes(Error(cc), items);
    var entered := CompileInitFunction(collected).0;
    CompileAllKeepsErrors(entered, FunctionsOf(items), compileFunction);
  }

  /** A fresh context stops with the missing-entry error exactly when no
      function of the program is called `main`. */
  lemma FreshMissingEntry(file: string, items: seq<ProgramItem>, compileFunction: (Context, Function) -> Context)
    ensures Compile(New(file), items, compileFunction).1 == MissingEntry
            <==> "main" !in Names(items, FunctionEntry)
  {
  }
}

=== FILE: decimal.dfy ===
/** Decimal rendering of natural numbers, as `format!("{}", n)` prints a `usize`. */
module Decimal {

  predicate IsDigit(c: char) {
    '0' <= c <= '9'
  }

  predicate AllDigits(s: string) {
    forall i :: 0 <= i < |s| ==> IsDigit(s[i])
  }

  function DigitChar(d: nat): (c: char)
    requires d < 10
    ensures IsDigit(c)
  {
    ('0' as int + d) as char
  }

  function DigitValue(c: char): int {
    c as int - '0' as int
  }

  /** The shortest decimal spelling of `n`, most significant digit first. */
  function NatToString(n: nat): (s: string)
    ensures 1 <= |s|
    ensures AllDigits(s)
    ensures n < 10 <==> |s| == 1
    decreases n
  {
    if n < 10 then [DigitChar(n)] else NatToString(n / 10) + [DigitChar(n % 10)]
  }

  /** The number a string of decimal digits denotes (the reading direction of `NatToString`). */
  function Value(s: string): int
    decreases |s|
  {
    if |s| == 0 then 0 else Value(s[..|s| - 1]) * 10 + DigitValue(s[|s| - 1])
  }

  /** Reading back a rendered number gives the number. */
  lemma {:induction false} ValueOfNatToString(n: nat)
    ensures Value(NatToString(n)) == n
    decreases n
  {
    if n >= 10 {
      var s := NatToString(n);
      assert s[..|s| - 1] == NatToString(n / 10);
      ValueOfNatToString(n / 10);
    }
  }

  /** Distinct numbers are rendered as distinct strings. */
  lemma NatToStringInjective(m: nat, n: nat)
    ensures NatToString(m) == NatToString(n) ==> m == n
  {
    ValueOfNatToString(m);
    ValueOfNatToString(n);
  }

  /** If two digit strings both sit at the head of `t`, each followed by the same
      non-digit separator, they are the same string: a label rendered as a prefix
      followed by a number and a separator names a single number. */
  lemma DigitsBeforeSeparator(a: string, b: string, sep: char, t: string)
    requires AllDigits(a) && AllDigits(b) && !IsDigit(sep)
    requires a + [sep] <= t && b + [sep] <= t
    ensures a == b
  {
    assert (a + [sep])[|a|] == sep && (b + [sep])[|b|] == sep;
    assert t[|a|] == sep && t[|b|] == sep;
    assert forall i :: 0 <= i < |a| ==> t[i] == a[i];
    assert forall i :: 0 <= i < |b| ==> t[i] == b[i];
    assert |a| == |b|;
    assert a == t[..|a|] == b;
  }
}

=== FILE: help.dfy ===
/** `padding_right` of `main.rs`: left-justifies a help entry in a column of
    20 bytes. Rust measures a `&str` in bytes of its UTF-8 encoding, so the
    width is counted in UTF-8 bytes, not in characters. */
module Help {
  const Column: nat := 20

  /** Bytes in the UTF-8 encoding of one Unicode scalar value. */
  function Utf8Width(c: char): (w: nat)
    ensures 1 <= w <= 4
    ensures w == 1 <==> c as int < 0x80
  {
    if c as int < 0x80 then 1 else if c as int < 0x800 then 2 else if c as int < 0x1_0000 then 3 else 4
  }

  /** The length in bytes of the UTF-8 encoding of `s` (`str::len`). */
  function Utf8Length(s: string): nat
    decreases |s|
  {
    if |s| == 0 then 0 else Utf8Width(s[0]) + Utf8Length(s[1..])
  }

  lemma {:induction false} Utf8LengthAppend(a: string, b: string)
    decreases |a|
    ensures Utf8Length(a + b) == Utf8Length(a) + Utf8Length(b)
  {
    if |a| > 0 {
      assert (a + b)[1..] == a[1..] + b;
      Utf8LengthAppend(a[1..], b);
    } else {
      assert a + b == b;
    }
  }

  /** Every character takes at least one byte, and exactly one when all of
      them are ASCII. */
  lemma {:induction false} Utf8LengthBounds(s: string)
    decreases |s|
    ensures |s| <= Utf8Length(s) <= 4 * |s|
    ensures Utf8Length(s) == |s| <==> forall i :: 0 <= i < |s| ==> s[i] as int < 0x80
  {
    if |s| > 0 {
      Utf8LengthBounds(s[1..]);
      assert forall i :: 1 <= i < |s| ==> s[i] == s[1..][i - 1];
    }
  }

  /** Appends spaces after `s` until its encoding is 20 bytes long. A string
      already longer than that underflows the `usize` subtraction, which the
      precondition excludes. */
  method PaddingRight(s: string) returns (text: string)
    requires Utf8Length(s) <= Column
    ensures Utf8Length(text) == Column
    ensures |text| == |s| + (Column - Utf8Length(s))
    ensures text[..|s|] == s
    ensures forall i :: |s| <= i < |text| ==> text[i] == ' '
  {
    text := s;
    var n := Column - Utf8Length(s);
    var i := 0;
    while i < n
      invariant 0 <= i <= n
      invariant |text| == |s| + i
      invariant text[..|s|] == s
      invariant forall j :: |s| <= j < |text| ==> text[j] == ' '
      invariant Utf8Length(text) == Utf8Length(s) + i
    {
      Utf8LengthAppend(text, " ");
      assert Utf8Length(" ") == 1;
      text := text + " ";
      i := i + 1;
    }
  }
}

=== FILE: parser.dfy ===
/** The prototype expression parser of `main.rs`: `Op::from_token_type` and the
    recursive `Expr::parse`. The lexer becomes a token sequence; the parser
    returns what it built together with the tokens it left unread. Every
    `exit(-1)` of the source is an `Err` outcome, and so is reading past the
    last token. */
module ExprParser {
  import opened Wrappers
  import opened Tokens

  datatype Op = Plus | Sub | Multi | Devide

  /** The source aborts on any token that is not one of the four operators. */
  function FromTokenType(t: TokenType): (r: Result<Op>)
    ensures r.Err? <==> !(t.Plus? || t.Minus? || t.Multi? || t.Devide?)
  {
    match t
    case Plus => Ok(Op.Plus)
    case Minus => Ok(Sub)
    case Multi => Ok(Op.Multi)
    case Devide => Ok(Op.Devide)
    case _ => Err("Unexpected Op Token")
  }

  /** The token each operator is written with. */
  function OpToken(op: Op): (t: TokenType) {
    match op
    case Plus => TokenType.Plus
    case Sub => Minus
    case Multi => TokenType.Multi
    case Devide => TokenType.Devide
  }

  /** `FromTokenType` and `OpToken` are inverse: a token converts to `op`
      exactly when it is the token `op` is written with. */
  lemma OpTokenRoundTrip(t: TokenType, op: Op)
    ensures FromTokenType(t) == Ok(op) <==> t == OpToken(op)
  {
  }

  datatype Expr =
    | Unary(op: Op, right: Expr)
    | Binary(left: Expr, bop: Op, right: Expr)
    | Int(value: int)
    | Variable(name: string)
    | FunctionCall(identifier: string, args: seq<Expr>)
    | ArrayIndex(identifier: string, indexer: Expr)

  /** The trees the parser can build: operators over integer literals. */
  predicate Arithmetic(e: Expr) {
    match e
    case Unary(_, r) => Arithmetic(r)
    case Binary(l, _, r) => Arithmetic(l) && Arithmetic(r)
    case Int(_) => true
    case _ => false
  }

  /** `rest` is what is left of `ts` after reading at least one token. */
  predicate StrictSuffix(rest: seq<TokenType>, ts: seq<TokenType>) {
    |rest| < |ts| && rest == ts[|ts| - |rest|..]
  }

  const EndOfInput := "Expected a token, found end of input"
  const MissingRight := "Operation Missing right side"
  const MissingLeft := "Operation Missing left side"
  const WithoutOp := "Unexpected token without Op"
  const Unexpected := "Unexpected token"

  /** One call of `Expr::parse` on the tokens `ts` with the already parsed
      operand `left`. `keep` selects the corrected behaviour of a signed
      literal that ends the expression (see `ParseCorrected`); with `keep`
      false this is the parser as written. Each call reads at least one
      token, which is why parsing a finite stream terminates. */
  function ParseExpr(ts: seq<TokenType>, left: Option<Expr>, keep: bool): (r: Result<(Option<Expr>, seq<TokenType>)>)
    decreases |ts|, 0
    ensures r.Ok? ==> StrictSuffix(r.value.1, ts)
    ensures r.Ok? && r.value.0.Some? && (left.None? || Arithmetic(left.value)) ==> Arithmetic(r.value.0.value)
  {
    if |ts| == 0 then Err(EndOfInput)
    else
      var t, rest := ts[0], ts[1..];
      match t
      case SemiColon => Ok((None, rest))
      case Plus | Minus => AddSub(FromTokenType(t).value, rest, left, keep)
      case Multi | Devide => MulDiv(FromTokenType(t).value, rest, left, keep)
      case Int(val) =>
        if left.Some? then Err(WithoutOp)
        else
          assert Arithmetic(Expr.Int(val));
          var next := ParseExpr(rest, Some(Expr.Int(val)), keep);
          if next.Ok? && next.value.0.None? then Ok((Some(Expr.Int(val)), next.value.1)) else next
      case Other(_) => Err(Unexpected)
  }

  /** A `+` or `-` whose token has been read; `rest` follows it. */
  function AddSub(op: Op, rest: seq<TokenType>, left: Option<Expr>, keep: bool): (r: Result<(Option<Expr>, seq<TokenType>)>)
    decreases |rest|, 1
    ensures r.Ok? ==> StrictSuffix(r.value.1, rest)
    ensures r.Ok? && r.value.0.Some? && (left.None? || Arithmetic(left.value)) ==> Arithmetic(r.value.0.value)
  {
    if left.None? then
      if |rest| == 0 then Err(EndOfInput)
      else if rest[0].Int? then
        // A sign directly before a literal: the signed literal becomes the left operand.
        var newLeft := Unary(op, Expr.Int(rest[0].val));
        assert Arithmetic(newLeft);
        var next := ParseExpr(rest[1..], Some(newLeft), keep);
        if keep && next.Ok? && next.value.0.None? then Ok((Some(newLeft), next.value.1)) else next
      else
        // Otherwise the token after the sign is read and dropped.
        match ParseExpr(rest[1..], None, keep)
        case Err(e) => Err(e)
        case Ok((None, _)) => Err(MissingRight)
        case Ok((Some(right), after)) => Ok((Some(Unary(op, right)), after))
    else
      match ParseExpr(rest, None, keep)
      case Err(e) => Err(e)
      case Ok((None, _)) => Err(MissingRight)
      case Ok((Some(right), after)) => Ok((Some(Binary(left.value, op, right)), after))
  }

  /** A `*` or `/` whose token has been read: the right side is parsed before
      the left operand is looked at. */
  function MulDiv(op: Op, rest: seq<TokenType>, left: Option<Expr>, keep: bool): (r: Result<(Option<Expr>, seq<TokenType>)>)
    decreases |rest|, 1
    ensures r.Ok? ==> StrictSuffix(r.value.1, rest)
    ensures r.Ok? && r.value.0.Some? && (left.None? || Arithmetic(left.value)) ==> Arithmetic(r.value.0.value)
  {
    match ParseExpr(rest, None, keep)
    case Err(e) => Err(e)
    case Ok((None, _)) => Err(MissingRight)
    case Ok((Some(right), after)) =>
      if left.None? then Err(MissingLeft) else Ok((Some(Binary(left.value, op, right)), after))
  }

  /** `Expr::parse` as written. */
  function Parse(ts: seq<TokenType>, left: Option<Expr>): (r: Result<(Option<Expr>, seq<TokenType>)>)
    ensures r.Ok? ==> StrictSuffix(r.value.1, ts)
    ensures r.Ok? && r.value.0.Some? && (left.None? || Arithmetic(left.value)) ==> Arithmetic(r.value.0.value)
  {
    ParseExpr(ts, left, false)
  }

  /** `Expr::parse` with a signed literal that ends the expression kept as the
      result, the way the `Int` branch keeps a plain literal. */
  function ParseCorrected(ts: seq<TokenType>, left: Option<Expr>): (r: Result<(Option<Expr>, seq<TokenType>)>)
    ensures r.Ok? ==> StrictSuffix(r.value.1, ts)
    ensures r.Ok? && r.value.0.Some? && (left.None? || Arithmetic(left.value)) ==> Arithmetic(r.value.0.value)
  {
    ParseExpr(ts, left, true)
  }

  /** A semicolon ends the expression at once, whatever operand came before. */
  lemma LeadingSemicolon(rest: seq<TokenType>, left: Option<Expr>, keep: bool)
    ensures ParseExpr([SemiColon] + rest, left, keep) == Ok((None, rest))
  {
    assert ([SemiColon] + rest)[1..] == rest;
  }

  /** A literal right after a complete operand is an error. */
  lemma IntAfterLeftIsError(val: int, rest: seq<TokenType>, l: Expr, keep: bool)
    ensures ParseExpr([TokenType.Int(val)] + rest, Some(l), keep) == Err(WithoutOp)
  {
  }

  /** `*` and `/` never start an expression: without a left operand the
      outcome is an error, whatever follows. */
  lemma MulDivWithoutLeftIsError(op: Op, rest: seq<TokenType>, keep: bool)
    requires op == Op.Multi || op == Op.Devide
    ensures ParseExpr([OpToken(op)] + rest, None, keep).Err?
  {
    assert ([OpToken(op)] + rest)[1..] == rest;
  }

  /** The outcome of a leading sign once the operand after it was parsed with
      outcome `operand`: an error stays an error, nothing is the missing right
      side, and an expression becomes the sign's operand. */
  function WithSign(op: Op, operand: Result<(Option<Expr>, seq<TokenType>)>): Result<(Option<Expr>, seq<TokenType>)> {
    if operand.Err? then Err(operand.error)
    else if operand.value.0.None? then Err(MissingRight)
    else Ok((Some(Unary(op, operand.value.0.value)), operand.value.1))
  }

  /** A leading sign that is not followed by a literal reads the next token and
      ignores it: any other non-literal token in its place gives the same
      outcome, which is the sign applied to a fresh parse of what follows. */
  lemma SignDropsNextToken(op: Op, t1: TokenType, t2: TokenType, rest: seq<TokenType>, keep: bool)
    requires op == Op.Plus || op == Sub
    requires !t1.Int? && !t2.Int?
    ensures ParseExpr([OpToken(op), t1] + rest, None, keep) == ParseExpr([OpToken(op), t2] + rest, None, keep)
    ensures ParseExpr([OpToken(op), t1] + rest, None, keep) == WithSign(op, ParseExpr(rest, None, keep))
  {
    assert ([OpToken(op), t1] + rest)[1..][1..] == rest;
    assert ([OpToken(op), t2] + rest)[1..][1..] == rest;
  }

  /** An operand of a flat chain: a literal, or a literal with a sign in front. */
  datatype Operand = Lit(n: int) | Signed(negative: bool, n: int)

  function SignOp(negative: bool): Op {
    if negative then Sub else Op.Plus
  }

  function OperandTokens(o: Operand): seq<TokenType> {
    match o
    case Lit(n) => [TokenType.Int(n)]
    case Signed(negative, n) => [OpToken(SignOp(negative)), TokenType.Int(n)]
  }

  function OperandExpr(o: Operand): Expr {
    match o
    case Lit(n) => Expr.Int(n)
    case Signed(negative, n) => Unary(SignOp(negative), Expr.Int(n))
  }

  /** The tokens of the operators and operands after the first operand. */
  function TailTokens(tail: seq<(Op, Operand)>): seq<TokenType>
    decreases |tail|
  {
    if |tail| == 0 then [] else [OpToken(tail[0].0)] + OperandTokens(tail[0].1) + TailTokens(tail[1..])
  }

  /** Reference reading of a chain `o0 op1 o1 … opk ok`: every operator, whatever
      its kind, takes everything to its right as its right operand. */
  function RightAssoc(first: Operand, tail: seq<(Op, Operand)>): Expr
    decreases |tail|
  {
    if |tail| == 0 then OperandExpr(first)
    else Binary(OperandExpr(first), tail[0].0, RightAssoc(tail[0].1, tail[1..]))
  }

  function LastOperand(first: Operand, tail: seq<(Op, Operand)>): Operand {
    if |tail| == 0 then first else tail[|tail| - 1].1
  }

  /** What parsing a chain followed by `;` yields: the right-associated tree,
      except that the parser as written loses a signed literal in last
      position, so that the chain either yields nothing or lacks a right side. */
  function ChainResult(first: Operand, tail: seq<(Op, Operand)>, after: seq<TokenType>, keep: bool): Result<(Option<Expr>, seq<TokenType>)> {
    if keep || LastOperand(first, tail).Lit? then Ok((Some(RightAssoc(first, tail)), after))
    else if |tail| == 0 then Ok((None, after))
    else Err(MissingRight)
  }

  /** Parsing `tail ;` after the left operand `l`. */
  function ContinuationResult(l: Expr, tail: seq<(Op, Operand)>, after: seq<TokenType>, keep: bool): Result<(Option<Expr>, seq<TokenType>)> {
    if |tail| == 0 then Ok((None, after))
    else if keep || LastOperand(tail[0].1, tail[1..]).Lit? then
      Ok((Some(Binary(l, tail[0].0, RightAssoc(tail[0].1, tail[1..]))), after))
    else Err(MissingRight)
  }

  /** The outcome of an operator with left operand `l` once its right side
      was parsed with outcome `right`. */
  function WithRight(l: Expr, op: Op, right: Result<(Option<Expr>, seq<TokenType>)>): Result<(Option<Expr>, seq<TokenType>)> {
    if right.Err? then Err(right.error)
    else if right.value.0.None? then Err(MissingRight)
    else Ok((Some(Binary(l, op, right.value.0.value)), right.value.1))
  }

  /** After a complete left operand all four operators behave alike: the
      right side is parsed from scratch and becomes the operator's right operand. */
  lemma OperatorAfterLeft(op: Op, s: seq<TokenType>, l: Expr, keep: bool)
    ensures ParseExpr([OpToken(op)] + s, Some(l), keep) == WithRight(l, op, ParseExpr(s, None, keep))
  {
    assert ([OpToken(op)] + s)[1..] == s;
  }

  /** A chain that starts with a plain literal: the literal becomes the left
      operand of what follows, and stands alone when nothing follows. */
  lemma LiteralFirst(n: int, s: seq<TokenType>, keep: bool)
    ensures ParseExpr([TokenType.Int(n)] + s, None, keep)
            == var next := ParseExpr(s, Some(Expr.Int(n)), keep);
               if next.Ok? && next.value.0.None? then Ok((Some(Expr.Int(n)), next.value.1)) else next
  {
    assert ([TokenType.Int(n)] + s)[1..] == s;
  }

  /** A chain that starts with a signed literal: the signed literal becomes the
      left operand of what follows; alone it is kept only with the correction. */
  lemma SignedFirst(negative: bool, n: int, s: seq<TokenType>, keep: bool)
    ensures ParseExpr([OpToken(SignOp(negative)), TokenType.Int(n)] + s, None, keep)
            == var newLeft := Unary(SignOp(negative), Expr.Int(n));
               var next := ParseExpr(s, Some(newLeft), keep);
               if keep && next.Ok? && next.value.0.None? then Ok((Some(newLeft), next.value.1)) else next
  {
    var ts := [OpToken(SignOp(negative)), TokenType.Int(n)] + s;
    assert ts[1..][0] == TokenType.Int(n) && ts[1..][1..] == s;
  }

  lemma {:induction false} ChainParses(first: Operand, tail: seq<(Op, Operand)>, after: seq<TokenType>, keep: bool)
    decreases |tail|, 1
    ensures ParseExpr(OperandTokens(first) + TailTokens(tail) + [SemiColon] + after, None, keep)
            == ChainResult(first, tail, after, keep)
  {
    var s := TailTokens(tail) + [SemiColon] + after;
    assert OperandTokens(first) + TailTokens(tail) + [SemiColon] + after == OperandTokens(first) + s;
    ContinuationParses(OperandExpr(first), tail, after, keep);
    assert |tail| > 0 ==> LastOperand(first, tail) == LastOperand(tail[0].1, tail[1..]);
    match first
    case Lit(n) => LiteralFirst(n, s, keep);
    case Signed(negative, n) => SignedFirst(negative, n, s, keep);
  }

  lemma {:induction false} ContinuationParses(l: Expr, tail: seq<(Op, Operand)>, after: seq<TokenType>, keep: bool)
    decreases |tail|, 0
    ensures ParseExpr(TailTokens(tail) + [SemiColon] + after, Some(l), keep)
            == ContinuationResult(l, tail, after, keep)
  {
    if |tail| == 0 {
      LeadingSemicolon(after, Some(l), keep);
    } else {
      var op, o := tail[0].0, tail[0].1;
      var s := OperandTokens(o) + TailTokens(tail[1..]) + [SemiColon] + after;
      assert TailTokens(tail) + [SemiColon] + after == [OpToken(op)] + s;
      OperatorAfterLeft(op, s, l, keep);
      ChainParses(o, tail[1..], after, keep);
    }
  }

  /** As written, a chain whose last operand is a plain literal parses to its
      right-associated tree, and exactly the tokens up to the `;` are read. */
  lemma ChainsAssociateRight(first: Operand, tail: seq<(Op, Operand)>, after: seq<TokenType>)
    requires LastOperand(first, tail).Lit?
    ensures Parse(OperandTokens(first) + TailTokens(tail) + [SemiColon] + after, None)
            == Ok((Some(RightAssoc(first, tail)), after))
  {
    ChainParses(first, tail, after, false);
  }

  /** As written, a chain that ends in a signed literal loses it: alone it
      yields no expression, and after an operator the operator lacks its right side. */
  lemma SignedLastOperandLost(first: Operand, tail: seq<(Op, Operand)>, after: seq<TokenType>)
    requires LastOperand(first, tail).Signed?
    ensures Parse(OperandTokens(first) + TailTokens(tail) + [SemiColon] + after, None)
            == if |tail| == 0 then Ok((None, after)) else Err(MissingRight)
  {
    ChainParses(first, tail, after, false);
  }

  /** `-1;` and `1 + -2;` as written. */
  lemma SignedLiteralExamples()
    ensures Parse([Minus, TokenType.Int(1), SemiColon], None) == Ok((None, []))
    ensures Parse([TokenType.Int(1), TokenType.Plus, Minus, TokenType.Int(2), SemiColon], None) == Err(MissingRight)
  {
    SignedLastOperandLost(Signed(true, 1), [], []);
    SignedLastOperandLost(Lit(1), [(Op.Plus, Signed(true, 2))], []);
    assert OperandTokens(Signed(true, 1)) + TailTokens([]) + [SemiColon] + [] == [Minus, TokenType.Int(1), SemiColon];
    assert OperandTokens(Lit(1)) + TailTokens([(Op.Plus, Signed(true, 2))]) + [SemiColon] + []
        == [TokenType.Int(1), TokenType.Plus, Minus, TokenType.Int(2), SemiColon];
  }

  /** The corrected parser reads every chain, signed literals anywhere
      included, as its right-associated tree. */
  lemma CorrectedChainsAssociateRight(first: Operand, tail: seq<(Op, Operand)>, after: seq<TokenType>)
    ensures ParseCorrected(OperandTokens(first) + TailTokens(tail) + [SemiColon] + after, None)
            == Ok((Some(RightAssoc(first, tail)), after))
  {
    ChainParses(first, tail, after, true);
  }

  /** `-1;` and `1 + -2;` with the correction. */
  lemma CorrectedSignedLiteralExamples()
    ensures ParseCorrected([Minus, TokenType.Int(1), SemiColon], None) == Ok((Some(Unary(Sub, Expr.Int(1))), []))
    ensures ParseCorrected([TokenType.Int(1), TokenType.Plus, Minus, TokenType.Int(2), SemiColon], None)
            == Ok((Some(Binary(Expr.Int(1), Op.Plus, Unary(Sub, Expr.Int(2)))), []))
  {
    CorrectedChainsAssociateRight(Signed(true, 1), [], []);
    CorrectedChainsAssociateRight(Lit(1), [(Op.Plus, Signed(true, 2))], []);
    assert OperandTokens(Signed(true, 1)) + TailTokens([]) + [SemiColon] + [] == [Minus, TokenType.Int(1), SemiColon];
    assert OperandTokens(Lit(1)) + TailTokens([(Op.Plus, Signed(true, 2))]) + [SemiColon] + []
        == [TokenType.Int(1), TokenType.Plus, Minus, TokenType.Int(2), SemiColon];
  }

  /** The input `main` parses, `-1 + 2 + 3;`: the sign binds to the first
      literal and the additions group to the right. */
  lemma MainExample()
    ensures Parse([Minus, TokenType.Int(1), TokenType.Plus, TokenType.Int(2), TokenType.Plus, TokenType.Int(3), SemiColon], None)
            == Ok((Some(Binary(Unary(Sub, Expr.Int(1)), Op.Plus, Binary(Expr.Int(2), Op.Plus, Expr.Int(3)))), []))
  {
    var tail := [(Op.Plus, Lit(2)), (Op.Plus, Lit(3))];
    ChainsAssociateRight(Signed(true, 1), tail, []);
    assert TailTokens(tail[1..]) == [TokenType.Plus, TokenType.Int(3)];
    assert OperandTokens(Signed(true, 1)) + TailTokens(tail) + [SemiColon] + []
        == [Minus, TokenType.Int(1), TokenType.Plus, TokenType.Int(2), TokenType.Plus, TokenType.Int(3), SemiColon];
  }

  /** `4 * 3 + 6;` groups to the right, `4 * (3 + 6)`: operator precedence
      plays no part in the grouping. */
  lemma PrecedenceIgnored()
    ensures Parse([TokenType.Int(4), TokenType.Multi, TokenType.Int(3), TokenType.Plus, TokenType.Int(6), SemiColon], None)
            == Ok((Some(Binary(Expr.Int(4), Op.Multi, Binary(Expr.Int(3), Op.Plus, Expr.Int(6)))), []))
  {
    var tail := [(Op.Multi, Lit(3)), (Op.Plus, Lit(6))];
    ChainsAssociateRight(Lit(4), tail, []);
    assert TailTokens(tail[1..]) == [TokenType.Plus, TokenType.Int(6)];
    assert OperandTokens(Lit(4)) + TailTokens(tail) + [SemiColon] + []
        == [TokenType.Int(4), TokenType.Multi, TokenType.Int(3), TokenType.Plus, TokenType.Int(6), SemiColon];
  }
}

=== FILE: registers.dfy ===
/** The register enumeration of the code generator. Each register's
    discriminant packs its width and its family into one byte: the high nibble
    is the width in bytes (0 for the four legacy high-byte registers), the low
    nibble the family (A=0, C=1, D=2, B=3, SP=4, BP=5, SI=6, DI=7, R8=8, R9=9). */
module Registers {
  import opened Wrappers

  datatype R =
    | RAX | RCX | RDX | RBX | RSP | RBP | RSI | RDI | R8 | R9
    | EAX | ECX | EDX | EBX | ESP | EBP | ESI | EDI | R8D | R9D
    | AX | CX | DX | BX | SP | BP | SI | DI | R8W | R9W
    | AH | AL | CH | CL | DH | DL | BH | BL | SPL | BPL | SIL | DIL | R8B | R9B

  /** A one-byte discriminant laid out as the enum lays them out: a family
      nibble of at most 9 under a width nibble of 1, 2, 4 or 8 bytes, or 0 for
      the high-byte registers, which only the four families A, C, D and B have. */
  predicate WellLaidOut(c: nat) {
    && c < 0x90 && c % 16 <= 9
    && c / 16 in {0, 1, 2, 4, 8}
    && (c / 16 == 0 ==> c % 16 <= 3)
  }

  /** The enum's `#[repr(u8)]` discriminant. */
  function Code(r: R): (c: nat)
    ensures WellLaidOut(c)
  {
    match r
    case RAX => 0x80 case RCX => 0x81 case RDX => 0x82 case RBX => 0x83
    case RSP => 0x84 case RBP => 0x85 case RSI => 0x86 case RDI => 0x87
    case R8 => 0x88 case R9 => 0x89
    case EAX => 0x40 case ECX => 0x41 case EDX => 0x42 case EBX => 0x43
    case ESP => 0x44 case EBP => 0x45 case ESI => 0x46 case EDI => 0x47
    case R8D => 0x48 case R9D => 0x49
    case AX => 0x20 case CX => 0x21 case DX => 0x22 case BX => 0x23
    case SP => 0x24 case BP => 0x25 case SI => 0x26 case DI => 0x27
    case R8W => 0x28 case R9W => 0x29
    case AH => 0x00 case AL => 0x10 case CH => 0x01 case CL => 0x11
    case DH => 0x02 case DL => 0x12 case BH => 0x03 case BL => 0x13
    case SPL => 0x14 case BPL => 0x15 case SIL => 0x16 case DIL => 0x17
    case R8B => 0x18 case R9B => 0x19
  }

  /** The register with a given discriminant, if any. */
  function FromCode(c: int): Option<R> {
    match c
    case 0x80 => Some(RAX) case 0x81 => Some(RCX) case 0x82 => Some(RDX) case 0x83 => Some(RBX)
    case 0x84 => Some(RSP) case 0x85 => Some(RBP) case 0x86 => Some(RSI) case 0x87 => Some(RDI)
    case 0x88 => Some(R8) case 0x89 => Some(R9)
    case 0x40 => Some(EAX) case 0x41 => Some(ECX) case 0x42 => Some(EDX) case 0x43 => Some(EBX)
    case 0x44 => Some(ESP) case 0x45 => Some(EBP) case 0x46 => Some(ESI) case 0x47 => Some(EDI)
    case 0x48 => Some(R8D) case 0x49 => Some(R9D)
    case 0x20 => Some(AX) case 0x21 => Some(CX) case 0x22 => Some(DX) case 0x23 => Some(BX)
    case 0x24 => Some(SP) case 0x25 => Some(BP) case 0x26 => Some(SI) case 0x27 => Some(DI)
    case 0x28 => Some(R8W) case 0x29 => Some(R9W)
    case 0x00 => Some(AH) case 0x10 => Some(AL) case 0x01 => Some(CH) case 0x11 => Some(CL)
    case 0x02 => Some(DH) case 0x12 => Some(DL) case 0x03 => Some(BH) case 0x13 => Some(BL)
    case 0x14 => Some(SPL) case 0x15 => Some(BPL) case 0x16 => Some(SIL) case 0x17 => Some(DIL)
    case 0x18 => Some(R8B) case 0x19 => Some(R9B)
    case _ => None
  }

  /** Every register is recovered from its discriminant, so no two registers share one. */
  lemma CodeRoundTrip(r: R)
    ensures FromCode(Code(r)) == Some(r)
  {
  }

  lemma CodeInjective(r1: R, r2: R)
    ensures Code(r1) == Code(r2) ==> r1 == r2
  {
    CodeRoundTrip(r1);
    CodeRoundTrip(r2);
  }

  /** The `Display` text of a register: its assembler name, two or three
      lower-case letters or digits starting with a letter. */
  function Name(r: R): (s: string)
    ensures IsLowerName(s)
  {
    match r
    case RAX => "rax" case RCX => "rcx" case RDX => "rdx" case RBX => "rbx"
    case RSP => "rsp" case RBP => "rbp" case RSI => "rsi" case RDI => "rdi"
    case R8 => "r8" case R9 => "r9"
    case EAX => "eax" case ECX => "ecx" case EDX => "edx" case EBX => "ebx"
    case ESP => "esp" case EBP => "ebp" case ESI => "esi" case EDI => "edi"
    case R8D => "r8d" case R9D => "r9d"
    case AX => "ax" case CX => "cx" case DX => "dx" case BX => "bx"
    case SP => "sp" case BP => "bp" case SI => "si" case DI => "di"
    case R8W => "r8w" case R9W => "r9w"
    case AH => "ah" case AL => "al" case CH => "ch" case CL => "cl"
    case DH => "dh" case DL => "dl" case BH => "bh" case BL => "bl"
    case SPL => "spl" case BPL => "bpl" case SIL => "sil" case DIL => "dil"
    case R8B => "r8b" case R9B => "r9b"
  }

  /** The register an assembler name denotes, if any: the parsing direction of `Name`. */
  function FromName(s: string): Option<R> {
    if |s| == 2 then
      match (s[0], s[1])
      case ('a', 'x') => Some(AX) case ('c', 'x') => Some(CX)
      case ('d', 'x') => Some(DX) case ('b', 'x') => Some(BX)
      case ('s', 'p') => Some(SP) case ('b', 'p') => Some(BP)
      case ('s', 'i') => Some(SI) case ('d', 'i') => Some(DI)
      case ('a', 'h') => Some(AH) case ('a', 'l') => Some(AL)
      case ('c', 'h') => Some(CH) case ('c', 'l') => Some(CL)
      case ('d', 'h') => Some(DH) case ('d', 'l') => Some(DL)
      case ('b', 'h') => Some(BH) case ('b', 'l') => Some(BL)
      case ('r', '8') => Some(R8) case ('r', '9') => Some(R9)
      case _ => None
    else if |s| == 3 then
      match (s[0], s[1], s[2])
      case ('r', 'a', 'x') => Some(RAX) case ('r', 'c', 'x') => Some(RCX)
      case ('r', 'd', 'x') => Some(RDX) case ('r', 'b', 'x') => Some(RBX)
      case ('r', 's', 'p') => Some(RSP) case ('r', 'b', 'p') => Some(RBP)
      case ('r', 's', 'i') => Some(RSI) case ('r', 'd', 'i') => Some(RDI)
      case ('r', '8', 'd') => Some(R8D) case ('r', '9', 'd') => Some(R9D)
      case ('r', '8', 'w') => Some(R8W) case ('r', '9', 'w') => Some(R9W)
      case ('r', '8', 'b') => Some(R8B) case ('r', '9', 'b') => Some(R9B)
      case ('e', 'a', 'x') => Some(EAX) case ('e', 'c', 'x') => Some(ECX)
      case ('e', 'd', 'x') => Some(EDX) case ('e', 'b', 'x') => Some(EBX)
      case ('e', 's', 'p') => Some(ESP) case ('e', 'b', 'p') => Some(EBP)
      case ('e', 's', 'i') => Some(ESI) case ('e', 'd', 'i') => Some(EDI)
      case ('s', 'p', 'l') => Some(SPL) case ('b', 'p', 'l') => Some(BPL)
      case ('s', 'i', 'l') => Some(SIL) case ('d', 'i', 'l') => Some(DIL)
      case _ => None
    else None
  }

  lemma NameRoundTrip(r: R)
    ensures FromName(Name(r)) == Some(r)
  {
    if |Name(r)| == 2 {
      ShortNameRoundTrip(r);
    } else {
      LongNameRoundTrip(r);
    }
  }

  lemma ShortNameRoundTrip(r: R)
    requires |Name(r)| == 2
    ensures FromName(Name(r)) == Some(r)
  {
  }

  lemma LongNameRoundTrip(r: R)
    requires |Name(r)| == 3
    ensures FromName(Name(r)) == Some(r)
  {
  }

  /** The 44 names are pairwise distinct. */
  lemma NamesDistinct(r1: R, r2: R)
    ensures Name(r1) == Name(r2) ==> r1 == r2
  {
    NameRoundTrip(r1);
    NameRoundTrip(r2);
  }

  predicate LowerOrDigit(c: char) {
    'a' <= c <= 'z' || '0' <= c <= '9'
  }

  /** Two or three lower-case letters or digits, the first a letter. */
  predicate IsLowerName(s: string) {
    && 2 <= |s| <= 3
    && 'a' <= s[0] <= 'z'
    && LowerOrDigit(s[1])
    && (|s| == 3 ==> LowerOrDigit(s[2]))
  }


  /** The register families that have a sized lookup (`A_s`, `C_s`, `D_s`,
      `B_s`, `Si_s`, `DI_s`, `R8_s`, `R9_s`). */
  datatype Family = Accumulator | Counter | Data | Base | SourceIndex | DestIndex | Ext8 | Ext9

  /** The family's low nibble in the discriminant. */
  function FamilyIndex(f: Family): nat {
    match f
    case Accumulator => 0 case Counter => 1 case Data => 2 case Base => 3
    case SourceIndex => 6 case DestIndex => 7 case Ext8 => 8 case Ext9 => 9
  }

  /** The element sizes for which a sized lookup is defined. */
  predicate IsItemSize(size: nat) {
    size == 1 || size == 2 || size == 4 || size == 8
  }

  /** The register of family `f` that is one byte wide. */
  function Width1(f: Family): (r: R)
    ensures Code(r) == 0x10 + FamilyIndex(f)
  {
    match f
    case Accumulator => AL case Base => BL
    case Counter => CL case Data => DL
    case DestIndex => DIL case SourceIndex => SIL
    case Ext8 => R8B case Ext9 => R9B
  }

  /** The register of family `f` that is two bytes wide. */
  function Width2(f: Family): (r: R)
    ensures Code(r) == 0x20 + FamilyIndex(f)
  {
    match f
    case Accumulator => AX case Base => BX
    case Counter => CX case Data => DX
    case DestIndex => DI case SourceIndex => SI
    case Ext8 => R8W case Ext9 => R9W
  }

  /** The register of family `f` that is four bytes wide. */
  function Width4(f: Family): (r: R)
    ensures Code(r) == 0x40 + FamilyIndex(f)
  {
    match f
    case Accumulator => EAX case Base => EBX
    case Counter => ECX case Data => EDX
    case DestIndex => EDI case SourceIndex => ESI
    case Ext8 => R8D case Ext9 => R9D
  }

  /** The register of family `f` that is eight bytes wide. */
  function Width8(f: Family): (r: R)
    ensures Code(r) == 0x80 + FamilyIndex(f)
  {
    match f
    case Accumulator => RAX case Base => RBX
    case Counter => RCX case Data => RDX
    case DestIndex => RDI case SourceIndex => RSI
    case Ext8 => R8 case Ext9 => R9
  }

  /** The register of family `f` that is `size` bytes wide: the lookups
      `A_s` … `R9_s` applied to a type whose `item_size()` is `size`.
      Any other size is `unreachable!()` in the source, hence the precondition. */
  function Sized(f: Family, size: nat): (r: R)
    requires IsItemSize(size)
    ensures Code(r) == 16 * size + FamilyIndex(f)
  {
    if size == 1 then Width1(f) else if size == 2 then Width2(f) else if size == 4 then Width4(f) else Width8(f)
  }

  lemma Nibbles(high: nat, low: nat)
    requires low < 16
    ensures (16 * high + low) / 16 == high && (16 * high + low) % 16 == low
  {
  }

  /** A lookup determines both its family and its size: different requests
      never resolve to the same register. */
  lemma SizedInjective(f1: Family, s1: nat, f2: Family, s2: nat)
    requires IsItemSize(s1) && IsItemSize(s2)
    requires Sized(f1, s1) == Sized(f2, s2)
    ensures f1 == f2 && s1 == s2
  {
    Nibbles(s1, FamilyIndex(f1));
    Nibbles(s2, FamilyIndex(f2));
  }

  /** The registers the lookups return are exactly those whose discriminant
      has a non-zero width nibble and a family nibble of one of the eight
      families: every such register is `Sized(family, width)`. */
  lemma SizedCoversFamily(r: R, f: Family)
    requires Code(r) % 16 == FamilyIndex(f) && Code(r) >= 16
    ensures IsItemSize(Code(r) / 16) && Sized(f, Code(r) / 16) == r
  {
    CodeInjective(r, Sized(f, Code(r) / 16));
  }

  /** Sample names from the table: the accumulator at 8 bytes and the counter at 1 byte. */
  lemma SizedNames()
    ensures Name(Sized(Accumulator, 8)) == "rax" && Name(Sized(Counter, 1)) == "cl"
    ensures Name(Sized(DestIndex, 4)) == "edi" && Name(Sized(Ext9, 2)) == "r9w"
  {
  }
}

=== FILE: tokens.dfy ===
/** The token kinds the prototype expression parser distinguishes. The lexer
    that produces them is not part of this model: a token stream is a finite
    sequence of these values. */
module Tokens {
  datatype TokenType =
    | Plus
    | Minus
    | Multi
    | Devide
    | SemiColon
    | Int(val: int)
      /** Any other token (identifier, keyword, bracket, …) with its text. */
    | Other(literal: string)
}

=== FILE: types.dfy ===
/** The front end's records that the backend consumes. Their definitions
    belong to the parser, which is not part of this model; only the parts the
    backend reads are kept. */
module Types {

  /** A source-language type, reduced to the two quantities the backend asks
      of it: `item_size()` (bytes of one element) and `size()` (bytes the
      variable occupies on the stack). */
  datatype VariableType = VariableType(itemSize: nat, size: nat)

  datatype Param = Param(ident: string, vtype: VariableType)

  /** A function's signature: name, ordered parameters, return type. */
  datatype FunctionDecl = FunctionDecl(ident: string, params: seq<Param>, returnType: VariableType)

  /** A function body; its statements are compiled by code outside this model. */
  datatype Block = Block(statements: seq<string>)

  datatype Function = Function(decl: FunctionDecl, body: Block)

  datatype StructDef = StructDef(ident: string, fields: seq<Param>)

  /** One top-level item of a parsed source file. `FFI` pairs the foreign
      symbol's binding with the signature it is called through. */
  datatype ProgramItem =
    | Func(fn: Function)
    | FFI(binding: string, decl: FunctionDecl)
    | Struct(def: StructDef)
    | StaticVar(ident: string)
}

=== FILE: wrappers.dfy ===
/** Failure-carrying result types shared by the model. */
module Wrappers {

  /** An optional value; stands for Rust's `Option`. */
  datatype Option<+T> = None | Some(value: T)

  /** A value or an error message; stands for `Result<T, String>` and for the
      `exit(-1)` paths that end a run with a diagnostic. */
  datatype Result<+T> = Ok(value: T) | Err(error: string)

  /** The outcome of an operation that returns no value: `Result<(), String>`. */
  datatype Outcome = Pass | Fail(error: string)
}
